=== FILE: README.md ===
# Four puzzle engines of Advent of Code 2025, in Dafny

A model of the library crates of days 1 to 4 of the `aoc-rust` solutions for
2025, with proofs about them.

- **Dials** (day 1): a dial of `size` positions whose pointer turns left or
  right by a number of clicks, and the text form `L68` / `R48` of a turn.
- **Ids** (day 2): ranges of product ids and two rules for invalid ids. Under
  the first rule the digits are one half written twice. Under the second rule
  the digits are one block written two or more times. The model covers the
  sums of invalid ids over a range and the parsing of `first-last`.
- **Banks** (day 3): banks of batteries with a joltage each, and the largest
  two-digit joltage got by switching on one battery and a later one.
- **Grids**, **GridParse**, **Erosion** (day 4): a grid of occupied (`@`) and
  empty (`.`) cells and the occupied neighbours of a cell. Erosion is how
  many cells are accessible, meaning occupied with fewer than `t` occupied
  neighbours. It also counts how many cells are removed by clearing the
  accessible cells pass after pass until a pass clears nothing.

The supporting modules are:

- **Results**: `Ok(value)` or `Err`.
- **Machine**: the `u8`, `u16` and `u64` value ranges, and bytes.
- **DivMod**: facts about Euclidean division.
- **Numerals**: decimal digits, `ilog10`, and Rust's `parse` for unsigned
  integers.
- **Text**: Rust's `str::split` on one separator, and `str::lines`.

**IdExamples** and **BankExamples** work out the literal cases of the
crates' tests on the model. **ErosionExamples** does the same for two small
grids, pass by pass.

Conventions:

- Every Rust panic is modelled as `Err`: an `unwrap` on a failed parse, an
  `assert!`, an index out of range, a division by zero, and arithmetic
  overflow in a debug build. So is `Err(())`.
- Integers are unbounded. Where Rust's fixed width matters, the bound
  is written out: `u8` overflow in `max_joltage`, `u16`/`u64` parse bounds,
  and the `u64` sums.
- Rust's `%` on `i32` truncates towards zero. It is modelled by
  `TruncatedRem`, separately from Dafny's Euclidean `%`.
- Day 3 and day 4 read text as bytes. Days 1 and 2 read it as characters.

## Model

| member | source | states |
|---|---|---|
| Dials.TruncatedRem | 2025/day01/src/lib.rs:30 | Rust's `%`: the remainder lies strictly between `-n` and `n` and has the sign of the dividend. The dividend minus the remainder is a multiple of `n`. It agrees with the Euclidean remainder on non-negative dividends. |
| Dials.LeftCorrection | 2025/day01/src/lib.rs:30-31 | Adding `size` to a negative truncated remainder gives the Euclidean remainder, so a left turn never leaves the dial. |
| Dials.Turn | 2025/day01/src/lib.rs:23-35 | The size is unchanged and the pointer stays below the size, so the cast to `u8` loses nothing. A right turn points at `(pointed + clicks) mod size` and a left turn at `(pointed - clicks) mod size`, both as Euclidean residues. |
| Dials.TurnChecked | 2025/day01/src/lib.rs:23-35 | `turn` on any dial fails exactly when the size is 0, where `% size` panics. Otherwise the size is kept and the pointer moves as in `Dials.Turn`. |
| Dials.TurnLeftThenRight | 2025/day01/src/lib.rs:23-35 | A right turn of the same clicks undoes a left turn. |
| Dials.TurnRightThenLeft | 2025/day01/src/lib.rs:23-35 | A left turn of the same clicks undoes a right turn. |
| Dials.TurnFullRevolutions | 2025/day01/src/lib.rs:23-35 | A multiple of `size` clicks, in either direction, leaves the dial as it was. |
| Dials.ParseDirection | 2025/day01/src/lib.rs:68-78 | Exactly `"L"` gives Left, exactly `"R"` gives Right, and every other text is an error. |
| Dials.ParseTurnSpec | 2025/day01/src/lib.rs:51-60 | Succeeds exactly when the text has a first character `L` or `R` and the rest parses as a `u16`. The direction and the count come from those two pieces. Empty text is an error. |
| Dials.ParseTurnSpecText | 2025/day01/src/lib.rs:51-60 | Parsing the text form of any turn gives the turn back. |
| Numerals.ILog10 | 2025/day02/src/lib.rs:70 | `ilog10(n)` is the exponent `e` with `10^e <= n < 10^(e+1)`. |
| Numerals.ILog10Unique | 2025/day02/src/lib.rs:70 | That exponent is unique. |
| Numerals.DecimalIsDigits | 2025/day02/src/lib.rs:70 | `ilog10(n) + 1` is the number of digits of `n`, and the decimal representation of `n` is its fixed-width digit string of that width. |
| Numerals.DecimalOfDigits | 2025/day02/src/lib.rs:70 | A digit string without a leading zero is the decimal representation of its value. |
| Numerals.ParseUnsigned | 2025/day02/src/lib.rs:58 | `parse::<u64>` (and `u16` on day 1) succeeds exactly when, after one optional `+`, one or more ASCII digits remain whose value is below the type's bound. The result is that value. |
| Numerals.ParseDecimalString | 2025/day02/src/lib.rs:58 | The decimal text of any value below the bound parses back to the value. |
| Text.Split | 2025/day02/src/lib.rs:57 | `split('-')` gives at least one piece, and no piece contains the separator. |
| Text.JoinSplit | 2025/day02/src/lib.rs:57 | Joining the pieces with the separator restores the text. |
| Text.SplitJoin | 2025/day02/src/lib.rs:57 | Splitting the join of separator-free pieces gives the pieces back. |
| Text.Lines | 2025/day04/src/lib.rs:100 | `lines()` gives lines without `\n`. |
| Text.LinesJoinLines | 2025/day04/src/lib.rs:100 | Rows without `\n` and without a final `\r`, each ended by `\n`, are split back into the same rows. |
| Text.LinesTrailingNewline | 2025/day04/src/lib.rs:100 | A final `\n` does not add a line. |
| Text.LinesJoinCrlfLines | 2025/day04/src/lib.rs:100 | Rows without `\n` and without a final `\r`, each ended by `\r\n`, are split back into the same rows: the `\r` before each `\n` is dropped. |
| Ids.IsInvalidPart1 | 2025/day02/src/lib.rs:69-77 | Holds exactly when the digit count is even and the high half of the digits, read as a number, equals the low half. `Ids.InvalidPart1Spec` restates this on digit strings. |
| Ids.IsInvalidPart2 | 2025/day02/src/lib.rs:79-105 | Holds exactly when some part length from 1 up to half the digit count divides the digits into equal groups. `Ids.InvalidPart2Spec` restates this on digit strings. |
| Ids.DigitCount | 2025/day02/src/lib.rs:70 | `id.ilog10() + 1` is the length of the decimal representation of `id`. |
| Ids.EvenPart1Halves | 2025/day02/src/lib.rs:71-76 | For an even digit count the digits are the high half followed by the low half. The test `id == second_half * m + second_half` holds exactly when those halves are equal. |
| Ids.InvalidPart1Spec | 2025/day02/src/lib.rs:69-77 | The first rule holds exactly when the decimal digits are some half written twice. |
| Ids.GroupsRepeat | 2025/day02/src/lib.rs:88-98 | The inner loop accepts exactly when every digit group of the part length equals the rightmost group, that is, when the digits of those groups are the reference group written once per group. |
| Ids.SomePartLenFromSpec | 2025/day02/src/lib.rs:82-102 | The outer loop accepts exactly when some part length from the start up to `len / 2` divides the length and passes the group test. |
| Ids.InvalidPart2Spec | 2025/day02/src/lib.rs:79-105 | The second rule holds exactly when the decimal digits are some block written at least twice. |
| Ids.Part1ImpliesPart2 | 2025/day02/src/lib.rs:69-105 | Every id invalid under the first rule is invalid under the second. |
| Ids.SingleDigitValid | 2025/day02/src/lib.rs:69-105 | One-digit ids are valid under both rules. |
| Ids.NewIdRange | 2025/day02/src/lib.rs:15-18 | `IdRange::new` succeeds exactly when `first <= last` and keeps both bounds. |
| Ids.InvalidIds | 2025/day02/src/lib.rs:31-33 | The ids are strictly ascending, and an id is among them exactly when it lies in `first..=last` and satisfies the predicate. |
| Ids.InvalidIdsPart1 | 2025/day02/src/lib.rs:35-37 | Fails exactly when the range starts at 0, where `ilog10` panics; the `u64` overflow of 20-digit ids is not modelled. Otherwise it gives the ascending ids of the range that are invalid under the first rule, and no others. |
| Ids.InvalidIdsPart2 | 2025/day02/src/lib.rs:43-45 | The same for the second rule. |
| Ids.SumU64 | 2025/day02/src/lib.rs:39-41 | A `u64` sum succeeds exactly when the ids exist and their total is below `2^64`, and it gives the total. |
| Ids.InvalidIdsSumPart1 | 2025/day02/src/lib.rs:39-41 | Fails exactly when the range starts at 0 or the total of its first-rule invalid ids reaches `2^64`. Otherwise it is that total: `Ids.SumU64` of the `Ids.InvalidIdsPart1` list. |
| Ids.InvalidIdsSumPart2 | 2025/day02/src/lib.rs:47-49 | The same for the second rule, over the `Ids.InvalidIdsPart2` list. |
| Ids.SumPart1AtMostPart2 | 2025/day02/src/lib.rs:39-49 | Both sums fail on a range starting at 0. When the second sum fits in a `u64`, so does the first, and it is no larger. |
| Ids.ParseIdRange | 2025/day02/src/lib.rs:55-66 | Succeeds exactly when splitting at `-` gives at least two pieces and every piece parses as a `u64`. The bounds are the first two values, and their order is not checked. |
| Ids.ParseIdRangeText | 2025/day02/src/lib.rs:55-66 | `first-last` written in decimal parses back to the range, whatever the order of its bounds. |
| IdExamples.HalvesPart1 | 2025/day02/src/lib.rs:69-77 | An id whose digits are two equal-length halves is invalid under the first rule exactly when the halves are equal. |
| IdExamples.Part1Example10 | 2025/day02/src/lib.rs:113 | 10 is valid under the first rule. |
| IdExamples.Part1Example11 | 2025/day02/src/lib.rs:114 | 11 is invalid under the first rule. |
| IdExamples.Part1Example12 | 2025/day02/src/lib.rs:115 | 12 is valid under the first rule. |
| IdExamples.Part1Example1212 | 2025/day02/src/lib.rs:116 | 1212 is invalid under the first rule. |
| IdExamples.Part1Example1213 | 2025/day02/src/lib.rs:117 | 1213 is valid under the first rule. |
| IdExamples.TwoDigitRules | 2025/day02/src/lib.rs:140-143 | A two-digit id is invalid under either rule exactly when its two digits are equal. This covers 10, 11, 12 and 21. |
| IdExamples.ThreeDigitRules | 2025/day02/src/lib.rs:144-146 | A three-digit id is never invalid under the first rule. It is invalid under the second exactly when its three digits are equal, which covers 111, 121 and 122. |
| IdExamples.TwoBlocks | 2025/day02/src/lib.rs:69-105 | An id of `2p` digits that is one `p`-digit block written twice is invalid under both rules. |
| IdExamples.TwoBlocksPart1 | 2025/day02/src/lib.rs:69-77 | Such an id passes the first rule: it has `2p` digits, and its low `p` digits, shifted up by `p` digits and added to themselves, give the id back. |
| IdExamples.ThreeBlocks | 2025/day02/src/lib.rs:79-105 | An id of `3p` digits that is one `p`-digit block written three times is invalid under the second rule. |
| IdExamples.Part2Example21 | 2025/day02/src/lib.rs:143 | 21 is valid under the second rule. |
| IdExamples.Part2Example111 | 2025/day02/src/lib.rs:144 | 111 is invalid under the second rule. |
| IdExamples.Part2Example121 | 2025/day02/src/lib.rs:145 | 121 is valid under the second rule. |
| IdExamples.Part2Example122 | 2025/day02/src/lib.rs:146 | 122 is valid under the second rule. |
| IdExamples.Part2Example121212 | 2025/day02/src/lib.rs:147 | 121212 is invalid under the second rule. |
| IdExamples.Part2Example123123 | 2025/day02/src/lib.rs:148 | 123123 is invalid under the second rule. |
| IdExamples.Part2Example123123123 | 2025/day02/src/lib.rs:149 | 123123123 is invalid under the second rule. |
| IdExamples.InvalidExamplePart1 | 2025/day02/src/lib.rs:124 | Of `95..=115`, only 99 is invalid under the first rule. |
| IdExamples.InvalidExamplePart2 | 2025/day02/src/lib.rs:156 | Of `95..=115`, only 99 and 111 are invalid under the second rule. |
| IdExamples.SumExamplePart1 | 2025/day02/src/lib.rs:124 | `IdRange::new(95, 115)` succeeds, and the first-rule sum over that range is 99. |
| IdExamples.SumExamplePart2 | 2025/day02/src/lib.rs:156 | `IdRange::new(95, 115)` succeeds, and the second-rule sum over that range is 99 + 111. |
| Banks.ScanMax | 2025/day03/src/lib.rs:31-39 | The scan ends on the largest joltage seen and on the leftmost battery holding it. An empty scan ends on joltage 0 at index 0. |
| Banks.Choose | 2025/day03/src/lib.rs:27-50 | The first battery is the leftmost largest of all but the last battery. The second comes after it and is a largest battery of those after it. |
| Banks.MaxJoltage | 2025/day03/src/lib.rs:25-54 | Fewer than two batteries fail. Otherwise let `a` and `b` be the two batteries the scans choose. The call succeeds exactly when both are non-zero and `10 * a + b` fits in a `u8`, and the result is then `10 * a + b`. So any result is at least 11 and comes from a battery followed by a later one. |
| Banks.GreedyIsBest | 2025/day03/src/lib.rs:25-54 | On digit joltages the two scans choose a pair whose joltage no other pair exceeds. |
| Banks.MaxJoltageOptimal | 2025/day03/src/lib.rs:25-54 | On a digit bank of two or more batteries, a result is the best pair's joltage and at most 99. A failure means a best pair has a 0 digit. |
| Banks.ParseBank | 2025/day03/src/lib.rs:60-63 | Succeeds exactly when no byte is below `'0'`, giving one battery per byte with joltage `byte - '0'`. |
| Banks.ParseFormatBank | 2025/day03/src/lib.rs:60-63 | The text of a bank whose joltages all fit in a byte after adding `'0'` parses back to the bank. |
| Banks.FormatParseBank | 2025/day03/src/lib.rs:60-63 | Text that parses is the text of the bank it parses to. |
| BankExamples.Example98 | 2025/day03/src/lib.rs:72 | `987654321111111` parses and its maximum joltage is 98. |
| BankExamples.Example89 | 2025/day03/src/lib.rs:73 | `811111111111119` gives 89. |
| BankExamples.Example78 | 2025/day03/src/lib.rs:74 | `234234234234278` gives 78. |
| BankExamples.Example92 | 2025/day03/src/lib.rs:75 | `818181911112111` gives 92. |
| BankExamples.GreedyMissesBeyondDigits | 2025/day03/src/lib.rs:25-54 | On joltages 14, 15, 1, 1 `max_joltage` gives 151, although switching on 14 and then 15 gives 155. |
| Grids.HeightChecked | 2025/day04/src/lib.rs:25-27 | Fails exactly on a zero width. Otherwise the height is the number of whole rows: `height * width <= cells < (height + 1) * width`. |
| Grids.Height | 2025/day04/src/lib.rs:25-27 | On a grid of whole rows, `height * width` is the number of cells. |
| Grids.IndexInBounds | 2025/day04/src/lib.rs:29-31 | A position inside the grid has its row-major index inside the cells. |
| Grids.CellChecked | 2025/day04/src/lib.rs:29-31 | Succeeds exactly when the row-major index is below the number of cells, and reads that cell. |
| Grids.StoreChecked | 2025/day04/src/lib.rs:33-35 | Succeeds exactly when the row-major index is below the number of cells. It sets that cell, keeps every other cell and the width. |
| Grids.StoreThenRead | 2025/day04/src/lib.rs:29-35 | A stored value is read back at its index, and every other index reads as before. |
| Grids.SetCell | 2025/day04/src/lib.rs:33-35 | The cell at the index becomes the value, and all other cells and the shape are kept. |
| Grids.AtAfterPut | 2025/day04/src/lib.rs:29-35 | Inside the grid, a store at `(x, y)` is seen at `(x, y)` and at no other position. |
| Grids.AdjacentCount | 2025/day04/src/lib.rs:37-56 | The clamped double loop counts exactly the occupied cells among the eight around `(x, y)` that lie inside the grid. So the count is at most 8. |
| Grids.NeighbourCountIsNeighbours | 2025/day04/src/lib.rs:37-56 | The eight-position count equals the number of occupied in-grid cells adjacent to `(x, y)`. |
| Grids.AdjacentCountNeighbours | 2025/day04/src/lib.rs:37-56 | `adjacent_count(x, y)` is the number of occupied in-grid cells adjacent to `(x, y)`. |
| Grids.NeighbourSymmetric | 2025/day04/src/lib.rs:37-56 | Of two occupied cells, the first is among the neighbours counted for the second exactly when the second is among those counted for the first. A cell never counts itself. |
| Grids.BlockMatches | 2025/day04/src/lib.rs:40-54 | The clamped block counts column by column what the reference counts. A column clamped away lies outside the grid. |
| Grids.ColumnMatches | 2025/day04/src/lib.rs:46-53 | One clamped column, skipping `(x, y)` itself, counts the occupied in-grid cells of that column next to `(x, y)`. |
| GridParse.CellOf | 2025/day04/src/lib.rs:116-122 | `@` is occupied, `.` is empty, and every other byte is an error. |
| GridParse.RowCells | 2025/day04/src/lib.rs:109 | A line's cells succeed exactly when every byte is `@` or `.`, and then read `@` as occupied. |
| GridParse.ParseRows | 2025/day04/src/lib.rs:98-112 | A grid built line by line has cells that are whole rows of its width, or width 0 and no cells. A width already set is kept. When none is set, a non-empty first line sets it. |
| GridParse.ParseRowsAccepts | 2025/day04/src/lib.rs:98-110 | The line loop succeeds exactly when every byte is a cell byte and every line after the width is set has that width. |
| GridParse.ParseRowsCells | 2025/day04/src/lib.rs:99-110 | The cells are those of the lines, one line after another. |
| GridParse.ParseRowsWidth | 2025/day04/src/lib.rs:98-112 | The width of a parsed grid is the length of every non-empty line; with no non-empty line it stays the width already set. |
| GridParse.ParseGrid | 2025/day04/src/lib.rs:94-114 | `from_str` succeeds exactly when all bytes are cell bytes and all non-empty lines share one width, with no empty line after a non-empty one. The cells are the lines' cells in order, and the grid is made of whole rows, or it has width 0 and no cells. The width is the length of every non-empty line, and 0 when no line is non-empty. |
| GridParse.FlattenRowMajor | 2025/day04/src/lib.rs:29-31 | For lines of one width, the flattened cell at `y * width + x` is byte `x` of line `y`. |
| GridParse.ParsedCell | 2025/day04/src/lib.rs:97-112 | For a parsed grid whose first line is not empty, position `(x, y)` of the grid is occupied exactly when byte `x` of line `y` is `@`. |
| GridParse.ParseRender | 2025/day04/src/lib.rs:94-114 | Parsing the `@`/`.` text of any non-empty grid of whole rows gives the grid back. |
| Erosion.AccessibleCount | 2025/day04/src/lib.rs:58-68 | The accessible cells are at most the occupied cells. |
| Erosion.AccessibleCountMonotone | 2025/day04/src/lib.rs:58-68 | A larger threshold makes at least as many cells accessible. |
| Erosion.AccessibleCountExtremes | 2025/day04/src/lib.rs:58-68 | Threshold 0 makes no cell accessible, and a threshold above 8 makes every occupied cell accessible. |
| Erosion.Erode | 2025/day04/src/lib.rs:74-83 | After a pass a cell is occupied exactly when it was occupied and not accessible in the grid before the pass. The shape is kept. |
| Erosion.ErodeCounts | 2025/day04/src/lib.rs:74-83 | The occupied cells after a pass plus the cells the pass clears are the occupied cells before it. |
| Erosion.RemovalPass | 2025/day04/src/lib.rs:74-83 | The nested loops of one pass, which read the old grid and write a copy, yield the eroded grid. Their count equals `accessible_count`, so the loops of `accessible_count` compute the same number. |
| Erosion.Removable | 2025/day04/src/lib.rs:70-91 | The total removed is at least the first pass's count and at most the occupied cells. |
| Erosion.RemovableExtremes | 2025/day04/src/lib.rs:70-91 | Threshold 0 removes nothing, and a threshold above 8 removes every occupied cell. |
| Erosion.FinalGrid | 2025/day04/src/lib.rs:73-89 | When the passes stop no cell is accessible. The occupied cells left plus the total removed are the occupied cells at the start. Cells only ever go from occupied to empty. |
| Erosion.FinalGridStable | 2025/day04/src/lib.rs:73-89 | Running the passes again on the final grid removes nothing and changes nothing. |
| Erosion.RemovableCount | 2025/day04/src/lib.rs:70-91 | The loop of passes, which stops at the first pass clearing nothing, returns the total the passes remove. |
| ErosionExamples.SingleCell | 2025/day04/src/lib.rs:58-91 | A 1×1 grid whose cell is occupied has one accessible cell, and one cell is removed in total, for every threshold of at least 1. |
| ErosionExamples.RowOfThree | 2025/day04/src/lib.rs:58-91 | On a row of three occupied cells with threshold 2, two cells are accessible. The middle cell is removed only in a second pass, so three cells are removed in total. |

## Left out

- Reading the puzzle files and the `part1`/`part2` binaries are left out: they are I/O around the modelled operations. So are the tests that read `example.txt`, which is not part of this model.
- `Dial::new` and `Dial::pointed` are the datatype's constructor and field. Nothing is stated about them beyond that.
- Ids.IsInvalidPart1: does not model the `u64` overflow of `second_half * m + second_half`. That overflow needs a 20-digit id; ids are unbounded naturals here.
- Ids.InvalidIdsPart1: the iterator is lazy. A range starting at 0 panics as soon as it is consumed. The model reports the error for the whole list, and both sums fail the same way. It also returns `Ok` for ranges holding 20-digit ids whose `second_half * m + second_half` overflows `u64`, where a debug build panics (see `Ids.IsInvalidPart1`).
- Dials.Turn: requires a positive size. `turn` on a dial of size 0 panics on `% 0`; `Dials.TurnChecked` models that panic.
- Grids.AdjacentCount: requires `(x, y)` inside the grid. Outside it the clamps of `adjacent_count` read cells of neighbouring rows or panic. `accessible_count` and `removable_count` only call it inside the grid.
- Grids.Cell: requires its index to exist. The panic of `cell` and `cell_mut` on a missing index is modelled by `Grids.CellChecked` and `Grids.StoreChecked`.
- Erosion.AccessibleCount: requires a grid of whole rows with a positive width. A grid parsed from text without a non-empty line has width 0, and `height()` then divides by zero; `Grids.HeightChecked` models that panic.
- Erosion.RemovableCount: requires a grid of whole rows with a positive width, for the same reason.
- GridParse.ParsedCell: requires the first line to be non-empty. Leading empty lines add no cells and do not change the grid, but the statement does not cover them.
- Banks.MaxJoltageOptimal: states optimality only for digit joltages (0 to 9). With larger bytes (`:` and above) the greedy choice can miss the best pair, as `BankExamples.GreedyMissesBeyondDigits` shows. `Banks.MaxJoltage` still fixes the result for any bytes.
- Release builds wrap on `u8` overflow instead of panicking. `max_joltage` is modelled with the panic of a debug build.
- UTF-8 validity of the input is not modelled. Days 1 and 2 read characters, and days 3 and 4 read bytes.

=== FILE: bank_examples.dfy ===
/** The literal banks of the `max_joltage` tests of day 3, worked out on the model. */
module BankExamples {
  import opened Machine
  import opened Results
  import opened Banks

  function BankOf(s: string): Result<Bank>
    requires forall i :: 0 <= i < |s| ==> s[i] as int < 0x80
  {
    ParseBank(AsciiBytes(s))
  }

  /** A string of ASCII digits parses to the bank of those digits. */
  lemma ParsesTo(s: string, js: seq<U8>)
    requires |s| == |js|
    requires forall i :: 0 <= i < |s| ==> '0' <= s[i] <= '9' && js[i] == s[i] as int - '0' as int
    ensures BankOf(s).Ok? && Joltages(BankOf(s).value) == js
  {
  }

  /** The two scans choose index `i`, the leftmost maximum of all but the last
      battery, and then a battery as large as `l`, a maximum after `i`. */
  lemma ChoiceOf(js: seq<U8>, i: nat, l: nat)
    requires i < l < |js| && i < |js| - 1
    requires forall k :: 0 <= k < i ==> js[k] < js[i]
    requires forall k :: 0 <= k < |js| - 1 ==> js[k] <= js[i]
    requires forall k :: i < k < |js| ==> js[k] <= js[l]
    ensures Choose(js).first == i && js[Choose(js).second] == js[l]
  {
    var c := Choose(js);
    assert js[i] <= js[c.first];
  }

  /** `max_joltage` of a bank whose chosen batteries are not 0 and small. */
  lemma MaxJoltageOf(bank: Bank)
    requires |bank.batteries| >= 2
    requires var js, c := Joltages(bank), Choose(Joltages(bank));
             0 < js[c.first] <= 9 && 0 < js[c.second] <= 9
    ensures var js, c := Joltages(bank), Choose(Joltages(bank));
            MaxJoltage(bank) == Ok(10 * (js[c.first] as int) + js[c.second] as int)
  {
  }

  /** A bank whose chosen batteries are `i` and `l`, both non-zero digits. */
  lemma DigitBankExample(bank: Bank, js: seq<U8>, i: nat, l: nat)
    requires Joltages(bank) == js
    requires i < l < |js| && i < |js| - 1
    requires forall k :: 0 <= k < i ==> js[k] < js[i]
    requires forall k :: 0 <= k < |js| - 1 ==> js[k] <= js[i]
    requires forall k :: i < k < |js| ==> js[k] <= js[l]
    requires 0 < js[i] <= 9 && 0 < js[l] <= 9
    ensures MaxJoltage(bank) == Ok(10 * (js[i] as int) + js[l] as int)
  {
    ChoiceOf(js, i, l);
    MaxJoltageOf(bank);
  }

  /** Beyond digits the greedy choice can miss the best pair: on joltages
      14, 15, 1, 1 it switches on 15 and then 1, for 151, while 14 and then
      15 give 155. */
  lemma GreedyMissesBeyondDigits(bank: Bank)
    requires Joltages(bank) == [14, 15, 1, 1]
    ensures MaxJoltage(bank) == Ok(151)
    ensures PairJoltage(Joltages(bank), 0, 1) == 155
    ensures !IsBestPair(Joltages(bank), 151)
  {
    ChoiceOf(Joltages(bank), 1, 2);
  }

  /** A digit string whose chosen batteries are `i` and `l`, both non-zero. */
  lemma StringExample(s: string, js: seq<U8>, i: nat, l: nat)
    requires |s| == |js|
    requires forall k :: 0 <= k < |s| ==> '0' <= s[k] <= '9' && js[k] == s[k] as int - '0' as int
    requires i < l < |js| && i < |js| - 1
    requires forall k :: 0 <= k < i ==> js[k] < js[i]
    requires forall k :: 0 <= k < |js| - 1 ==> js[k] <= js[i]
    requires forall k :: i < k < |js| ==> js[k] <= js[l]
    requires 0 < js[i] <= 9 && 0 < js[l] <= 9
    ensures BankOf(s).Ok?
    ensures MaxJoltage(BankOf(s).value) == Ok(10 * (js[i] as int) + js[l] as int)
  {
    ParsesTo(s, js);
    DigitBankExample(BankOf(s).value, js, i, l);
  }

  /** Each example is proved first for a string `s` equal to the literal,
      then stated on the literal itself. */
  lemma Example98Of(s: string)
    requires s == "987654321111111"
    ensures BankOf(s).Ok? && MaxJoltage(BankOf(s).value) == Ok(98)
  {
    StringExample(s, [9, 8, 7, 6, 5, 4, 3, 2, 1, 1, 1, 1, 1, 1, 1], 0, 1);
  }

  /** `max_joltage` of the bank `987654321111111` is 98. */
  lemma Example98()
    ensures BankOf("987654321111111").Ok? && MaxJoltage(BankOf("987654321111111").value) == Ok(98)
  {
    Example98Of("987654321111111");
  }

  lemma Example89Of(s: string)
    requires s == "811111111111119"
    ensures BankOf(s).Ok? && MaxJoltage(BankOf(s).value) == Ok(89)
  {
    StringExample(s, [8, 1, 1, 1, 1, 1, 1, 1, 1, 1, 1, 1, 1, 1, 9], 0, 14);
  }

  /** `max_joltage` of the bank `811111111111119` is 89. */
  lemma Example89()
    ensures BankOf("811111111111119").Ok? && MaxJoltage(BankOf("811111111111119").value) == Ok(89)
  {
    Example89Of("811111111111119");
  }

  lemma Example78Of(s: string)
    requires s == "234234234234278"
    ensures BankOf(s).Ok? && MaxJoltage(BankOf(s).value) == Ok(78)
  {
    StringExample(s, [2, 3, 4, 2, 3, 4, 2, 3, 4, 2, 3, 4, 2, 7, 8], 13, 14);
  }

  /** `max_joltage` of the bank `234234234234278` is 78. */
  lemma Example78()
    ensures BankOf("234234234234278").Ok? && MaxJoltage(BankOf("234234234234278").value) == Ok(78)
  {
    Example78Of("234234234234278");
  }

  lemma Example92Of(s: string)
    requires s == "818181911112111"
    ensures BankOf(s).Ok? && MaxJoltage(BankOf(s).value) == Ok(92)
  {
    StringExample(s, [8, 1, 8, 1, 8, 1, 9, 1, 1, 1, 1, 2, 1, 1, 1], 6, 11);
  }

  /** `max_joltage` of the bank `818181911112111` is 92. */
  lemma Example92()
    ensures BankOf("818181911112111").Ok? && MaxJoltage(BankOf("818181911112111").value) == Ok(92)
  {
    Example92Of("818181911112111");
  }
}

=== FILE: banks.dfy ===
/** A bank of batteries, each with a joltage, and the largest two-digit
    joltage obtained by switching on two of its batteries: the first gives the
    tens and a later one the units. */
module Banks {
  import opened Machine
  import opened Results

  datatype Battery = Battery(joltage: U8)

  datatype Bank = Bank(batteries: seq<Battery>)

  function Joltages(bank: Bank): (js: seq<U8>)
    ensures |js| == |bank.batteries|
    ensures forall i :: 0 <= i < |js| ==> js[i] == bank.batteries[i].joltage
  {
    seq(|bank.batteries|, i requires 0 <= i < |bank.batteries| => bank.batteries[i].joltage)
  }

  /** The state of a scan: the largest joltage seen and where it was first seen. */
  datatype Pick = Pick(joltage: U8, index: nat)

  /** The scanning loop of `max_joltage` over `js[..n]`: it starts from joltage
      0 at index 0 and moves only on a strictly larger joltage, so it keeps
      the leftmost maximum. */
  function ScanMax(js: seq<U8>, n: nat): (p: Pick)
    requires n <= |js|
    ensures n == 0 ==> p == Pick(0, 0)
    ensures n > 0 ==> p.index < n && js[p.index] == p.joltage
    ensures forall i :: 0 <= i < n ==> js[i] <= p.joltage
    ensures forall i :: 0 <= i < p.index ==> js[i] < p.joltage
  {
    if n == 0 then Pick(0, 0)
    else
      var p := ScanMax(js, n - 1);
      if js[n - 1] > p.joltage then Pick(js[n - 1], n - 1) else p
  }

  /** The indices of the two batteries `max_joltage` switches on. */
  datatype Choice = Choice(first: nat, second: nat)

  /** The two scans of `max_joltage` on a bank of at least two batteries: the
      leftmost maximum of all but the last battery, then the leftmost maximum
      of those after it. */
  function Choose(js: seq<U8>): (c: Choice)
    requires |js| >= 2
    ensures c.first < c.second < |js|
    ensures js[c.first] == ScanMax(js, |js| - 1).joltage
    ensures forall i :: 0 <= i < |js| - 1 ==> js[i] <= js[c.first]
    ensures forall i :: 0 <= i < c.first ==> js[i] < js[c.first]
    ensures forall k :: c.first < k < |js| ==> js[k] <= js[c.second]
  {
    var first := ScanMax(js, |js| - 1);
    var start := first.index + 1;
    var rest := js[start..];
    var second := ScanMax(rest, |rest|);
    ScanSuffix(js, start);
    Choice(first.index, start + second.index)
  }

  /** The scan of the batteries from `start` on, in the indices of the whole bank. */
  lemma ScanSuffix(js: seq<U8>, start: nat)
    requires start < |js|
    ensures var p := ScanMax(js[start..], |js| - start);
            start + p.index < |js| && js[start + p.index] == p.joltage
            && forall k :: start <= k < |js| ==> js[k] <= p.joltage
  {
    var rest := js[start..];
    assert forall k :: start <= k < |js| ==> js[k] == rest[k - start];
  }

  /** `max_joltage`. It panics when the bank is empty (`len - 1` underflows),
      when either maximum is 0 (a single battery leaves the first scan empty),
      and when `first * 10 + second` overflows `u8`. */
  function MaxJoltage(bank: Bank): (r: Result<U8>)
    ensures r.Ok? ==> exists i, j :: 0 <= i < j < |bank.batteries|
                        && r.value == 10 * (Joltages(bank)[i] as int) + Joltages(bank)[j] as int
                        && Joltages(bank)[i] > 0 && Joltages(bank)[j] > 0
    ensures r.Ok? ==> r.value >= 11
    ensures |bank.batteries| < 2 ==> r == Err
    ensures |bank.batteries| >= 2 ==>
              var js, c := Joltages(bank), Choose(Joltages(bank));
              (r.Ok? <==> js[c.first] > 0 && js[c.second] > 0
                          && 10 * (js[c.first] as int) + js[c.second] as int < U8_LIMIT)
              && (r.Ok? ==> r.value == 10 * (js[c.first] as int) + js[c.second] as int)
  {
    var js := Joltages(bank);
    if |js| < 2 then Err
    else
      var c := Choose(js);
      var first, second := js[c.first], js[c.second];
      if first == 0 || second == 0 then Err
      else
        var tens := first as int * 10;
        if tens >= U8_LIMIT then Err
        else if tens + second >= U8_LIMIT then Err
        else Ok(tens + second)
  }

  /** The joltage of switching on batteries `i < j`. */
  function PairJoltage(js: seq<U8>, i: nat, j: nat): nat
    requires i < j < |js|
  {
    10 * (js[i] as int) + js[j] as int
  }

  /** `v` is the joltage of some pair and no pair gives more. */
  ghost predicate IsBestPair(js: seq<U8>, v: nat)
  {
    (exists i, j :: 0 <= i < j < |js| && PairJoltage(js, i, j) == v)
    && forall i, j :: 0 <= i < j < |js| ==> PairJoltage(js, i, j) <= v
  }

  /** Every joltage is a digit. */
  predicate IsDigitBank(js: seq<U8>)
  {
    forall i :: 0 <= i < |js| ==> js[i] <= 9
  }

  /** The greedy choice of `max_joltage`, before its `assert!`s and its `u8`
      arithmetic: on digits, the leftmost maximum of all but the last battery
      followed by the maximum after it is a best pair. */
  lemma GreedyIsBest(js: seq<U8>)
    requires |js| >= 2 && IsDigitBank(js)
    ensures IsBestPair(js, PairJoltage(js, Choose(js).first, Choose(js).second))
  {
    var c := Choose(js);
    var v := PairJoltage(js, c.first, c.second);
    forall a, b | 0 <= a < b < |js| ensures PairJoltage(js, a, b) <= v {
      assert js[a] <= js[c.first];
      if js[a] == js[c.first] {
        assert a >= c.first;
      }
    }
  }

  /** On digit banks `max_joltage` is the best pair's joltage when neither of
      its digits is 0, and panics when one is. */
  lemma MaxJoltageOptimal(bank: Bank)
    requires |bank.batteries| >= 2 && IsDigitBank(Joltages(bank))
    ensures MaxJoltage(bank).Ok? ==> IsBestPair(Joltages(bank), MaxJoltage(bank).value)
    ensures MaxJoltage(bank).Ok? ==> MaxJoltage(bank).value <= 99
    ensures MaxJoltage(bank).Err? ==>
              exists i, j :: 0 <= i < j < |bank.batteries|
                && IsBestPair(Joltages(bank), PairJoltage(Joltages(bank), i, j))
                && (Joltages(bank)[i] == 0 || Joltages(bank)[j] == 0)
  {
    var js := Joltages(bank);
    var c := Choose(js);
    GreedyIsBest(js);
    assert js[c.first] <= 9 && js[c.second] <= 9;
  }

  /** `Bank::from_str`: each byte minus `'0'`. The `u8` subtraction panics on a
      byte below `'0'`; bytes above `'9'` pass through. */
  function ParseBank(s: seq<Byte>): (r: Result<Bank>)
    ensures r.Ok? <==> forall i :: 0 <= i < |s| ==> s[i] >= ZERO
    ensures r.Ok? ==> |r.value.batteries| == |s|
    ensures r.Ok? ==> forall i :: 0 <= i < |s| ==> r.value.batteries[i].joltage == s[i] - ZERO
  {
    if exists i :: 0 <= i < |s| && s[i] < ZERO then Err
    else Ok(Bank(seq(|s|, i requires 0 <= i < |s| => Battery(s[i] - ZERO))))
  }

  /** The text of a bank whose joltages stay within a byte once `'0'` is added. */
  function FormatBank(bank: Bank): (s: seq<Byte>)
    requires forall i :: 0 <= i < |bank.batteries| ==> bank.batteries[i].joltage < U8_LIMIT - ZERO
    ensures |s| == |bank.batteries|
  {
    seq(|bank.batteries|, i requires 0 <= i < |bank.batteries| => bank.batteries[i].joltage + ZERO)
  }

  /** Parsing the text of a bank gives the bank back. */
  lemma ParseFormatBank(bank: Bank)
    requires forall i :: 0 <= i < |bank.batteries| ==> bank.batteries[i].joltage < U8_LIMIT - ZERO
    ensures ParseBank(FormatBank(bank)) == Ok(bank)
  {
    var r := ParseBank(FormatBank(bank));
    assert r.value.batteries == bank.batteries;
  }

  /** Text that parses is the text of the bank it parses to. */
  lemma FormatParseBank(s: seq<Byte>)
    requires ParseBank(s).Ok?
    ensures FormatBank(ParseBank(s).value) == s
  {
  }
}

=== FILE: dials.dfy ===
/** A dial of `size` positions, numbered from 0, whose pointer is turned left
    or right by a number of clicks; and the text form `<L|R><clicks>` of a
    turn. */
module Dials {
  import opened Machine
  import opened Results
  import opened DivMod
  import Numerals

  datatype Direction = Left | Right

  /** A direction and a click count (a `u16`). */
  datatype TurnSpec = TurnSpec(dir: Direction, clicks: U16)

  /** `Dial::new(size, pointed)` is the constructor; `pointed()` the field. */
  datatype Dial = Dial(size: U8, pointed: U8)

  /** Rust's `%` on signed integers: the remainder has the sign of the dividend. */
  function TruncatedRem(a: int, n: int): (m: int)
    requires n > 0
    ensures -n < m < n
    ensures a >= 0 ==> m == a % n
    ensures a < 0 ==> m <= 0
    ensures (a - m) % n == 0
  {
    if a >= 0 then
      RemainderDifference(a, n);
      a % n
    else
      var q, r := (-a) / n, (-a) % n;
      NegativeRem(a, n, q, r);
      -r
  }

  lemma RemainderDifference(a: int, n: int)
    requires n > 0
    ensures (a - a % n) % n == 0
  {
    assert a - a % n == (a / n) * n;
    ModAddMultiple(0, a / n, n);
  }

  lemma NegativeRem(a: int, n: int, q: int, r: int)
    requires n > 0 && a < 0 && q == (-a) / n && r == (-a) % n
    ensures (a + r) % n == 0
  {
    assert -a == q * n + r;
    assert a + r == (-q) * n by {
      MulNeg(q, n);
    }
    ModAddMultiple(0, -q, n);
  }

  /** Turns the pointer. Positions are computed in `i32`, where neither sum nor
      difference can overflow; a left turn corrects a negative truncated
      remainder by adding `size`. The result is below `size`, so the final
      cast to `u8` is lossless. */
  function Turn(d: Dial, spec: TurnSpec): (r: Dial)
    requires d.size > 0
    ensures r.size == d.size
    ensures r.pointed < r.size
    ensures spec.dir == Right ==> r.pointed == (d.pointed + spec.clicks) % d.size
    ensures spec.dir == Left ==> r.pointed == (d.pointed - spec.clicks) % d.size
  {
    var size := d.size as int;
    var pointed := d.pointed as int;
    var clicks := spec.clicks as int;
    var next := match spec.dir {
      case Left =>
        var m := TruncatedRem(pointed - clicks, size);
        LeftCorrection(pointed - clicks, size);
        if m < 0 then size + m else m
      case Right => TruncatedRem(pointed + clicks, size)
    };
    Dial(d.size, next as U8)
  }

  /** `turn` on any dial: on a dial of size 0 both `% size` panic. */
  function TurnChecked(d: Dial, spec: TurnSpec): (r: Result<Dial>)
    ensures r.Err? <==> d.size == 0
    ensures r.Ok? ==> r.value.size == d.size && r.value.pointed < d.size
    ensures r.Ok? && spec.dir == Right ==> r.value.pointed == (d.pointed + spec.clicks) % d.size
    ensures r.Ok? && spec.dir == Left ==> r.value.pointed == (d.pointed - spec.clicks) % d.size
  {
    if d.size == 0 then Err else Ok(Turn(d, spec))
  }

  /** Adding the divisor to a negative truncated remainder gives the Euclidean one. */
  lemma LeftCorrection(a: int, n: int)
    requires n > 0
    ensures var m := TruncatedRem(a, n); (if m < 0 then n + m else m) == a % n
  {
    var m := TruncatedRem(a, n);
    if m < 0 {
      assert a == (a - m) + m;
      assert (a - m) == ((a - m) / n) * n;
      DivModUnique(a, n, (a - m) / n - 1, n + m);
    } else {
      assert a == (a - m) + m;
      DivModUnique(a, n, (a - m) / n, m);
    }
  }

  /** A left turn is undone by a right turn of the same clicks. */
  lemma TurnLeftThenRight(d: Dial, clicks: U16)
    requires 0 < d.size && d.pointed < d.size
    ensures Turn(Turn(d, TurnSpec(Left, clicks)), TurnSpec(Right, clicks)) == d
  {
    var n, p, c := d.size as int, d.pointed as int, clicks as int;
    var left := Turn(d, TurnSpec(Left, clicks));
    var back := Turn(left, TurnSpec(Right, clicks));
    assert left.pointed == (p - c) % n;
    assert back.pointed == (left.pointed + c) % n;
    ModAddLeft(p - c, c, n);
    assert p - c + c == p;
    DivModUnique(p, n, 0, p);
    assert back.pointed == p;
  }

  /** A right turn is undone by a left turn of the same clicks. */
  lemma TurnRightThenLeft(d: Dial, clicks: U16)
    requires 0 < d.size && d.pointed < d.size
    ensures Turn(Turn(d, TurnSpec(Right, clicks)), TurnSpec(Left, clicks)) == d
  {
    var n, p, c := d.size as int, d.pointed as int, clicks as int;
    var right := Turn(d, TurnSpec(Right, clicks));
    var back := Turn(right, TurnSpec(Left, clicks));
    assert right.pointed == (p + c) % n;
    assert back.pointed == (right.pointed - c) % n;
    ModAddLeft(p + c, -c, n);
    assert p + c + -c == p;
    DivModUnique(p, n, 0, p);
    assert back.pointed == p;
  }

  /** A whole number of revolutions, either way, leaves the pointer in place. */
  lemma TurnFullRevolutions(d: Dial, spec: TurnSpec)
    requires 0 < d.size && d.pointed < d.size
    requires spec.clicks % d.size == 0
    ensures Turn(d, spec) == d
  {
    var n, p, c := d.size as int, d.pointed as int, spec.clicks as int;
    var k := c / n;
    assert c == k * n;
    assert p % n == p by {
      DivModUnique(p, n, 0, p);
    }
    var r := Turn(d, spec);
    match spec.dir {
      case Right =>
        assert r.pointed as int == p by {
          ModAddMultiple(p, k, n);
        }
      case Left =>
        assert r.pointed as int == p by {
          assert p - c == p + (-k) * n by {
            MulNeg(k, n);
          }
          ModAddMultiple(p, -k, n);
        }
    }
  }

  /** Rust's `FromStr` for `Direction`: exactly "L" or "R". */
  function ParseDirection(s: string): (r: Result<Direction>)
    ensures r == Ok(Left) <==> s == "L"
    ensures r == Ok(Right) <==> s == "R"
    ensures r == Err <==> s != "L" && s != "R"
  {
    match s
    case "L" => Ok(Left)
    case "R" => Ok(Right)
    case _ => Err
  }

  function DirectionText(dir: Direction): string
  {
    match dir
    case Left => "L"
    case Right => "R"
  }

  /** Rust's `FromStr` for `TurnSpec`: the first character is the direction and
      the rest the click count. `split_at(1)` panics on empty text and the two
      `unwrap`s panic on a bad direction or count, all modelled as `Err`. */
  function ParseTurnSpec(s: string): (r: Result<TurnSpec>)
    ensures r.Ok? <==> |s| >= 1 && (s[0] == 'L' || s[0] == 'R')
                       && Numerals.ParseUnsigned(s[1..], U16_LIMIT).Ok?
    ensures r.Ok? ==> ParseDirection([s[0]]) == Ok(r.value.dir)
    ensures r.Ok? ==> Numerals.ParseUnsigned(s[1..], U16_LIMIT) == Ok(r.value.clicks)
  {
    if |s| == 0 then Err
    else
      var dirText, clicksText := s[..1], s[1..];
      assert dirText == [s[0]];
      match (ParseDirection(dirText), Numerals.ParseUnsigned(clicksText, U16_LIMIT))
      case (Ok(dir), Ok(clicks)) => Ok(TurnSpec(dir, clicks))
      case _ => Err
  }

  /** The text form of a turn: the direction letter and the decimal count. */
  function TurnSpecText(spec: TurnSpec): string
  {
    DirectionText(spec.dir) + Numerals.ToDecimalString(spec.clicks)
  }

  /** Parsing the text form of a turn gives the turn back. */
  lemma ParseTurnSpecText(spec: TurnSpec)
    ensures ParseTurnSpec(TurnSpecText(spec)) == Ok(spec)
  {
    var s := TurnSpecText(spec);
    assert s[1..] == Numerals.ToDecimalString(spec.clicks);
    Numerals.ParseDecimalString(spec.clicks, U16_LIMIT);
    assert [s[0]] == DirectionText(spec.dir);
  }
}

=== FILE: divmod.dfy ===
/** Facts about Euclidean division that the nonlinear arithmetic of the solver
    does not find on its own. */
module DivMod {

  /** Division is determined by any quotient/remainder decomposition. */
  lemma DivModUnique(n: int, d: int, q: int, r: int)
    requires 0 < d && 0 <= r < d && n == q * d + r
    ensures n / d == q && n % d == r
  {
    var q0, r0 := n / d, n % d;
    assert (q - q0) * d == r0 - r by {
      assert n == q0 * d + r0;
      MulSubLeft(q, q0, d);
    }
    if q > q0 {
      MulAtLeast(q - q0, d);
    } else if q < q0 {
      MulAtLeast(q0 - q, d);
      MulNeg(q - q0, d);
    }
  }

  lemma MulSubLeft(a: int, b: int, d: int)
    ensures (a - b) * d == a * d - b * d
  {
  }

  lemma MulNeg(a: int, d: int)
    ensures (-a) * d == -(a * d)
  {
  }

  lemma MulAtLeast(e: int, d: int)
    requires 1 <= e && 0 < d
    ensures e * d >= d
  {
    assert e * d == (e - 1) * d + d;
  }

  /** `x / m` as a natural number. */
  function Quot(x: nat, m: nat): nat
    requires m > 0
  {
    x / m
  }

  /** Dividing twice is dividing by the product; the remainder splits accordingly. */
  lemma DivDiv(n: nat, a: nat, b: nat)
    requires 0 < a && 0 < b
    ensures 0 < a * b
    ensures n / a / b == n / (a * b)
    ensures n % (a * b) == (n / a % b) * a + n % a
  {
    var q, r := n / a, n % a;
    var q2, r2 := q / b, q % b;
    assert 0 < a * b by {
      MulAtLeast(b, a);
    }
    assert n == q2 * (a * b) + (r2 * a + r) by {
      assert n == q * a + r;
      assert q == q2 * b + r2;
      MulAddRight(q2 * b, r2, a);
      assert q2 * b * a == q2 * (a * b);
    }
    assert r2 * a + r < a * b by {
      MulAtLeastMono(b - 1, r2, a);
      MulAddRight(b - 1, 1, a);
    }
    DivModUnique(n, a * b, q2, r2 * a + r);
  }

  lemma MulAddRight(x: int, y: int, a: int)
    ensures (x + y) * a == x * a + y * a
  {
  }

  /** Adding a multiple of the divisor does not change the remainder. */
  lemma ModAddMultiple(a: int, k: int, n: int)
    requires 0 < n
    ensures (a + k * n) % n == a % n
  {
    DivModUnique(a + k * n, n, a / n + k, a % n);
  }

  /** Reducing an operand first does not change the remainder of a sum. */
  lemma ModAddLeft(a: int, b: int, n: int)
    requires 0 < n
    ensures (a % n + b) % n == (a + b) % n
  {
    ModAddMultiple(a % n + b, a / n, n);
  }

  /** `(y * w + x) / w == y` and `(y * w + x) % w == x` for `0 <= x < w`. */
  lemma RowMajor(x: int, y: int, w: int)
    requires 0 <= x < w
    ensures (y * w + x) / w == y && (y * w + x) % w == x
  {
    DivModUnique(y * w + x, w, y, x);
  }

  /** An index below `h * w` decodes to a row below `h`. */
  lemma RowBound(i: nat, w: nat, h: nat)
    requires 0 < w && i < h * w
    ensures i / w < h
  {
    if i / w >= h {
      MulAtLeastMono(i / w, h, w);
    }
  }

  lemma MulAtLeastMono(a: int, b: int, w: int)
    requires a >= b && w > 0
    ensures a * w >= b * w
  {
  }

  /** Row `y < h` of `w` cells ends inside a grid of `h` rows. */
  lemma RowEnd(x: nat, y: nat, w: nat, h: nat)
    requires x < w && y < h
    ensures y * w + x < h * w
    ensures (y + 1) * w <= h * w
  {
    assert (y + 1) * w == y * w + w;
    assert (y + 1) * w <= h * w;
  }
}

=== FILE: erosion.dfy ===
/** Erosion of a grid: a cell is accessible when it is occupied and fewer
    than `t` of its neighbours are; a pass clears every accessible cell of the
    grid as it was before the pass, and passes repeat until one clears nothing. */
module Erosion {
  import opened DivMod
  import opened Grids

  /** The number of `true` entries of `s`. */
  function CountTrue(s: seq<bool>): (n: nat)
    ensures n <= |s|
  {
    if |s| == 0 then 0 else CountTrue(s[..|s| - 1]) + (if s[|s| - 1] then 1 else 0)
  }

  function OccupiedCount(g: Grid): nat
  {
    CountTrue(g.cells)
  }

  /** The position of the cell at row-major index `i` lies inside the grid. */
  lemma IndexPosition(g: Grid, i: nat)
    requires Valid(g) && i < |g.cells|
    ensures InBounds(g, i % g.width, i / g.width)
    ensures (i / g.width) * g.width + i % g.width == i
  {
    RowBound(i, g.width, Height(g));
  }

  /** The cell at row-major index `i` is occupied and has fewer than `t`
      occupied neighbours. */
  predicate Accessible(g: Grid, t: nat, i: nat)
    requires Valid(g) && i < |g.cells|
  {
    IndexPosition(g, i);
    g.cells[i] && AdjacentCount(g, i % g.width, i / g.width) < t
  }

  /** The accessible cells among the first `n`. */
  function CountAccessible(g: Grid, t: nat, n: nat): (c: nat)
    requires Valid(g) && n <= |g.cells|
    ensures c <= CountTrue(g.cells[..n])
  {
    if n == 0 then 0
    else
      assert g.cells[..n][..n - 1] == g.cells[..n - 1];
      CountAccessible(g, t, n - 1) + (if Accessible(g, t, n - 1) then 1 else 0)
  }

  /** `accessible_count`, as a count over the cells in row-major order. */
  function AccessibleCount(g: Grid, t: nat): (c: nat)
    requires Valid(g)
    ensures c <= OccupiedCount(g)
  {
    assert g.cells[..|g.cells|] == g.cells;
    CountAccessible(g, t, |g.cells|)
  }

  /** With a larger threshold at least as many cells are accessible. */
  lemma {:induction false} CountAccessibleMonotone(g: Grid, t: nat, u: nat, n: nat)
    requires Valid(g) && t <= u && n <= |g.cells|
    ensures CountAccessible(g, t, n) <= CountAccessible(g, u, n)
  {
    if n > 0 {
      CountAccessibleMonotone(g, t, u, n - 1);
    }
  }

  lemma AccessibleCountMonotone(g: Grid, t: nat, u: nat)
    requires Valid(g) && t <= u
    ensures AccessibleCount(g, t) <= AccessibleCount(g, u)
  {
    CountAccessibleMonotone(g, t, u, |g.cells|);
  }

  /** No cell has fewer than 0 neighbours, and every cell has fewer than 9. */
  lemma {:induction false} CountAccessibleExtremes(g: Grid, n: nat, t: nat)
    requires Valid(g) && n <= |g.cells|
    ensures CountAccessible(g, 0, n) == 0
    ensures t >= 9 ==> CountAccessible(g, t, n) == CountTrue(g.cells[..n])
  {
    if n > 0 {
      CountAccessibleExtremes(g, n - 1, t);
      assert g.cells[..n][..n - 1] == g.cells[..n - 1];
      IndexPosition(g, n - 1);
    }
  }

  lemma AccessibleCountExtremes(g: Grid, t: nat)
    requires Valid(g)
    ensures AccessibleCount(g, 0) == 0
    ensures t >= 9 ==> AccessibleCount(g, t) == OccupiedCount(g)
  {
    CountAccessibleExtremes(g, |g.cells|, t);
    assert g.cells[..|g.cells|] == g.cells;
  }

  /** The grid after one pass: every cell accessible before the pass is
      cleared and every other cell keeps its value. */
  function Erode(g: Grid, t: nat): (r: Grid)
    requires Valid(g)
    ensures Valid(r) && r.width == g.width && |r.cells| == |g.cells|
    ensures forall i :: 0 <= i < |g.cells| ==> r.cells[i] == (g.cells[i] && !Accessible(g, t, i))
  {
    Grid(g.width, seq(|g.cells|, i requires 0 <= i < |g.cells| => g.cells[i] && !Accessible(g, t, i)))
  }

  /** A pass clears exactly the accessible cells: the occupied cells left and
      the cells cleared add up to the occupied cells before. */
  lemma {:induction false} ErodeCountsPrefix(g: Grid, t: nat, n: nat)
    requires Valid(g) && n <= |g.cells|
    ensures CountTrue(Erode(g, t).cells[..n]) + CountAccessible(g, t, n) == CountTrue(g.cells[..n])
  {
    if n > 0 {
      ErodeCountsPrefix(g, t, n - 1);
      var r := Erode(g, t);
      assert r.cells[..n][..n - 1] == r.cells[..n - 1];
      assert g.cells[..n][..n - 1] == g.cells[..n - 1];
    }
  }

  lemma ErodeCounts(g: Grid, t: nat)
    requires Valid(g)
    ensures OccupiedCount(Erode(g, t)) + AccessibleCount(g, t) == OccupiedCount(g)
  {
    ErodeCountsPrefix(g, t, |g.cells|);
    assert g.cells[..|g.cells|] == g.cells;
    assert Erode(g, t).cells[..|g.cells|] == Erode(g, t).cells;
  }

  /** `removable_count`: the cells cleared by all passes, the last pass being
      the first one that clears nothing. Each other pass clears at least one
      occupied cell, which bounds the number of passes. */
  function Removable(g: Grid, t: nat): (total: nat)
    requires Valid(g)
    ensures AccessibleCount(g, t) <= total <= OccupiedCount(g)
    decreases OccupiedCount(g)
  {
    var c := AccessibleCount(g, t);
    if c == 0 then 0
    else
      ErodeCounts(g, t);
      c + Removable(Erode(g, t), t)
  }

  /** With threshold 0 nothing is ever removed; with a threshold above 8
      every occupied cell goes in the first pass. */
  lemma RemovableExtremes(g: Grid, t: nat)
    requires Valid(g)
    ensures Removable(g, 0) == 0
    ensures t >= 9 ==> Removable(g, t) == OccupiedCount(g)
  {
    AccessibleCountExtremes(g, t);
    if t >= 9 && AccessibleCount(g, t) > 0 {
      ErodeCounts(g, t);
      assert Removable(Erode(g, t), t) == 0;
    }
  }

  /** The grid left when the passes stop. */
  function FinalGrid(g: Grid, t: nat): (f: Grid)
    requires Valid(g)
    ensures Valid(f) && f.width == g.width && |f.cells| == |g.cells|
    ensures AccessibleCount(f, t) == 0
    ensures OccupiedCount(f) + Removable(g, t) == OccupiedCount(g)
    ensures forall i :: 0 <= i < |g.cells| && f.cells[i] ==> g.cells[i]
    decreases OccupiedCount(g)
  {
    if AccessibleCount(g, t) == 0 then g
    else
      ErodeCounts(g, t);
      FinalGrid(Erode(g, t), t)
  }

  /** Eroding the final grid again clears nothing and changes nothing. */
  lemma FinalGridStable(g: Grid, t: nat)
    requires Valid(g)
    ensures Removable(FinalGrid(g, t), t) == 0
    ensures FinalGrid(FinalGrid(g, t), t) == FinalGrid(g, t)
  {
  }

  /** A pass that has visited the first `i` cells: those are as in the eroded
      grid, the rest as before, and `count` accessible cells were cleared. */
  ghost predicate PassState(g: Grid, t: nat, i: nat, next: Grid, count: nat)
    requires Valid(g)
  {
    && next.width == g.width && |next.cells| == |g.cells| && i <= |g.cells|
    && (forall j :: 0 <= j < i ==> next.cells[j] == Erode(g, t).cells[j])
    && (forall j :: i <= j < |g.cells| ==> next.cells[j] == g.cells[j])
    && count == CountAccessible(g, t, i)
  }

  /** Visiting cell `i` extends the pass by one cell. */
  lemma PassStep(g: Grid, t: nat, i: nat, next: Grid, count: nat)
    requires Valid(g) && i < |g.cells| && PassState(g, t, i, next, count)
    ensures Accessible(g, t, i) ==> PassState(g, t, i + 1, Grid(next.width, next.cells[i := false]), count + 1)
    ensures !Accessible(g, t, i) ==> PassState(g, t, i + 1, next, count)
  {
  }

  /** The cell the loops of a pass visit at `(x, y)` is cell `i` of the
      row-major order, and the loops' test is accessibility. */
  lemma VisitCell(g: Grid, t: nat, x: nat, y: nat, i: nat, next: Grid, count: nat)
    requires Valid(g) && InBounds(g, x, y) && i == y * g.width + x
    requires PassState(g, t, i, next, count)
    ensures i < |g.cells| && next.width == g.width && y * next.width + x < |next.cells|
    ensures (At(g, x, y) && AdjacentCount(g, x, y) < t) == Accessible(g, t, i)
    ensures SetCell(next, x, y, false) == Grid(next.width, next.cells[i := false])
  {
    IndexInBounds(g, x, y);
    RowMajor(x, y, g.width);
  }

  /** One pass of `removable_count`: it reads only `g`, the grid as it was
      before the pass, and clears cells in the copy `next`. */
  method RemovalPass(g: Grid, t: nat) returns (next: Grid, count: nat)
    requires Valid(g)
    ensures next == Erode(g, t)
    ensures count == AccessibleCount(g, t)
  {
    var width, height := g.width, Height(g);
    next := g;
    count := 0;
    var i := 0;
    var y := 0;
    while y < height
      invariant 0 <= y <= height && i == y * width
      invariant PassState(g, t, i, next, count)
    {
      var x := 0;
      while x < width
        invariant 0 <= x <= width && i == y * width + x
        invariant PassState(g, t, i, next, count)
      {
        VisitCell(g, t, x, y, i, next, count);
        PassStep(g, t, i, next, count);
        if At(g, x, y) && AdjacentCount(g, x, y) < t {
          next := SetCell(next, x, y, false);
          count := count + 1;
        }
        x := x + 1;
        i := i + 1;
      }
      assert i == (y + 1) * width;
      y := y + 1;
    }
    assert next.cells == Erode(g, t).cells;
    assert g.cells[..|g.cells|] == g.cells;
  }

  /** `removable_count`: passes on the grid of the previous pass, adding up
      what each clears, until a pass clears nothing. */
  method RemovableCount(g: Grid, t: nat) returns (total: nat)
    requires Valid(g)
    ensures total == Removable(g, t)
  {
    total := 0;
    var grid := g;
    while true
      invariant Valid(grid)
      invariant total + Removable(grid, t) == Removable(g, t)
      decreases OccupiedCount(grid)
    {
      var next, count := RemovalPass(grid, t);
      if count == 0 {
        break;
      }
      ErodeCounts(grid, t);
      total := total + count;
      grid := next;
    }
  }
}

=== FILE: erosion_examples.dfy ===
/** Small grids whose erosion is worked out pass by pass on the model. */
module ErosionExamples {
  import opened Grids
  import opened Erosion
  import opened DivMod

  /** The accessible cells among the first `n`, counted from a list that
      marks which cells are accessible. */
  lemma {:induction false} CountAccessibleFrom(g: Grid, t: nat, acc: seq<bool>, n: nat)
    requires Valid(g) && |acc| == |g.cells| && n <= |g.cells|
    requires forall i :: 0 <= i < |acc| ==> (acc[i] <==> Accessible(g, t, i))
    ensures CountAccessible(g, t, n) == CountTrue(acc[..n])
  {
    if n > 0 {
      CountAccessibleFrom(g, t, acc, n - 1);
      assert acc[..n][..n - 1] == acc[..n - 1];
    }
  }

  /** The count of one pass and the grid it leaves, given which cells are
      accessible. */
  lemma AccessibleCountFrom(g: Grid, t: nat, acc: seq<bool>)
    requires Valid(g) && |acc| == |g.cells|
    requires forall i :: 0 <= i < |acc| ==> (acc[i] <==> Accessible(g, t, i))
    ensures AccessibleCount(g, t) == CountTrue(acc)
    ensures Erode(g, t).cells == seq(|acc|, i requires 0 <= i < |acc| => g.cells[i] && !acc[i])
  {
    CountAccessibleFrom(g, t, acc, |acc|);
    assert acc[..|acc|] == acc;
  }

  /** Cell `(x, y)` is accessible when it is occupied and fewer than `t` of
      the eight cells around it are. */
  lemma AccessibleAt(g: Grid, t: nat, x: nat, y: nat)
    requires Valid(g) && InBounds(g, x, y)
    ensures y * g.width + x < |g.cells|
    ensures Accessible(g, t, y * g.width + x) <==> At(g, x, y) && NeighbourCount(g, x, y) < t
  {
    IndexInBounds(g, x, y);
    RowMajor(x, y, g.width);
  }

  /** The number of `true` entries is 0 when every entry is `false`. */
  lemma {:induction false} CountTrueNone(s: seq<bool>)
    requires forall i :: 0 <= i < |s| ==> !s[i]
    ensures CountTrue(s) == 0
  {
    if |s| > 0 {
      CountTrueNone(s[..|s| - 1]);
    }
  }

  /** A grid with no occupied cell has no accessible cell and loses none. */
  lemma EmptyGrid(g: Grid, t: nat)
    requires Valid(g) && forall i :: 0 <= i < |g.cells| ==> !g.cells[i]
    ensures AccessibleCount(g, t) == 0 && Removable(g, t) == 0
  {
    CountTrueNone(g.cells);
  }

  /** One pass of erosion, given which cells are accessible and the grid
      the pass leaves. */
  lemma PassFrom(g: Grid, t: nat, acc: seq<bool>, next: Grid)
    requires Valid(g) && |acc| == |g.cells|
    requires forall i :: 0 <= i < |acc| ==> (acc[i] <==> Accessible(g, t, i))
    requires next.width == g.width && |next.cells| == |g.cells|
    requires forall i :: 0 <= i < |acc| ==> next.cells[i] == (g.cells[i] && !acc[i])
    ensures Valid(next)
    ensures AccessibleCount(g, t) == CountTrue(acc)
    ensures CountTrue(acc) > 0 ==> Removable(g, t) == CountTrue(acc) + Removable(next, t)
  {
    AccessibleCountFrom(g, t, acc);
    assert Erode(g, t) == next;
  }

  /** The lone cell of a 1×1 grid has no neighbour, so it is accessible. */
  lemma SingleCellAccessible(g: Grid, t: nat)
    requires g.width == 1 && g.cells == [true] && t >= 1
    ensures Valid(g) && |g.cells| == 1 && Accessible(g, t, 0)
  {
    assert Valid(g) && Height(g) == 1;
    AccessibleAt(g, t, 0, 0);
    assert NeighbourCount(g, 0, 0) == 0;
  }

  /** A one-cell grid whose cell is accessible is cleared in one pass. */
  lemma OneCellPass(g: Grid, next: Grid, t: nat)
    requires Valid(g) && |g.cells| == 1 && g.cells[0] && Accessible(g, t, 0)
    requires next.width == g.width && |next.cells| == 1 && !next.cells[0]
    ensures AccessibleCount(g, t) == 1
    ensures Removable(g, t) == 1
  {
    var acc := [true];
    forall i | 0 <= i < 1 ensures acc[i] <==> Accessible(g, t, i) {
      assert i == 0;
    }
    forall i | 0 <= i < 1 ensures next.cells[i] == (g.cells[i] && !acc[i]) {
      assert i == 0;
    }
    PassFrom(g, t, acc, next);
    assert CountTrue(acc) == 1;
    EmptyGrid(next, t);
  }

  /** The 1×1 example on named grids. */
  lemma SingleCellOf(g: Grid, next: Grid, t: nat)
    requires g.width == 1 && g.cells == [true] && t >= 1
    requires next.width == 1 && next.cells == [false]
    ensures AccessibleCount(g, t) == 1
    ensures Removable(g, t) == 1
  {
    SingleCellAccessible(g, t);
    OneCellPass(g, next, t);
  }

  /** A single occupied cell has no neighbours, so any positive threshold
      clears it in the first pass. */
  lemma SingleCell(t: nat)
    requires t >= 1
    ensures AccessibleCount(Grid(1, [true]), t) == 1
    ensures Removable(Grid(1, [true]), t) == 1
  {
    SingleCellOf(Grid(1, [true]), Grid(1, [false]), t);
  }

  /** `next` is what a pass leaves of `g` when exactly the cells marked in
      `acc` are accessible. */
  predicate PassLeaves(g: Grid, t: nat, acc: seq<bool>, next: Grid)
    requires Valid(g)
  {
    && |acc| == |g.cells|
    && (forall i :: 0 <= i < |acc| ==> (acc[i] <==> Accessible(g, t, i)))
    && next.width == g.width && |next.cells| == |g.cells|
    && (forall i :: 0 <= i < |acc| ==> next.cells[i] == (g.cells[i] && !acc[i]))
  }

  /** Two passes that clear something, after which nothing is occupied. */
  lemma TwoPasses(g: Grid, t: nat, acc0: seq<bool>, g1: Grid, acc1: seq<bool>, g2: Grid)
    requires Valid(g) && PassLeaves(g, t, acc0, g1) && CountTrue(acc0) > 0
    requires Valid(g1) && PassLeaves(g1, t, acc1, g2) && CountTrue(acc1) > 0
    requires forall i :: 0 <= i < |g2.cells| ==> !g2.cells[i]
    ensures AccessibleCount(g, t) == CountTrue(acc0)
    ensures Removable(g, t) == CountTrue(acc0) + CountTrue(acc1)
  {
    PassFrom(g, t, acc0, g1);
    PassFrom(g1, t, acc1, g2);
    EmptyGrid(g2, t);
  }

  /** First pass on the row: each end has one neighbour, the middle two. */
  lemma RowFirstPass(g: Grid, g1: Grid)
    requires g.width == 3 && g.cells == [true, true, true]
    requires g1.width == 3 && g1.cells == [false, true, false]
    ensures Valid(g) && PassLeaves(g, 2, [true, false, true], g1)
  {
    assert Valid(g) && Height(g) == 1;
    AccessibleAt(g, 2, 0, 0);
    AccessibleAt(g, 2, 1, 0);
    AccessibleAt(g, 2, 2, 0);
    assert NeighbourCount(g, 0, 0) == 1;
    assert NeighbourCount(g, 1, 0) == 2;
    assert NeighbourCount(g, 2, 0) == 1;
    var acc := [true, false, true];
    forall i | 0 <= i < 3 ensures acc[i] <==> Accessible(g, 2, i) {
      if i == 0 {} else if i == 1 {} else { assert i == 2; }
    }
    forall i | 0 <= i < 3 ensures g1.cells[i] == (g.cells[i] && !acc[i]) {
      if i == 0 {} else if i == 1 {} else { assert i == 2; }
    }
  }

  /** Second pass on the row: the middle cell stands alone. */
  lemma RowSecondAccessible(g1: Grid)
    requires g1.width == 3 && g1.cells == [false, true, false]
    ensures Valid(g1) && |g1.cells| == 3
    ensures forall i :: 0 <= i < 3 ==> (Accessible(g1, 2, i) <==> i == 1)
  {
    assert Valid(g1) && Height(g1) == 1;
    AccessibleAt(g1, 2, 0, 0);
    AccessibleAt(g1, 2, 1, 0);
    AccessibleAt(g1, 2, 2, 0);
    assert NeighbourCount(g1, 1, 0) == 0;
    forall i | 0 <= i < 3 ensures Accessible(g1, 2, i) <==> i == 1 {
      if i == 0 {} else if i == 1 {} else { assert i == 2; }
    }
  }

  /** The second pass leaves the row empty. */
  lemma RowSecondPass(g1: Grid, g2: Grid)
    requires g1.width == 3 && g1.cells == [false, true, false]
    requires g2.width == 3 && g2.cells == [false, false, false]
    ensures Valid(g1) && PassLeaves(g1, 2, [false, true, false], g2)
    ensures forall i :: 0 <= i < |g2.cells| ==> !g2.cells[i]
  {
    RowSecondAccessible(g1);
    var acc := [false, true, false];
    forall i | 0 <= i < 3 ensures acc[i] <==> Accessible(g1, 2, i) {
      if i == 0 {} else if i == 1 {} else { assert i == 2; }
    }
    forall i | 0 <= i < 3 ensures g2.cells[i] == (g1.cells[i] && !acc[i]) && !g2.cells[i] {
      if i == 0 {} else if i == 1 {} else { assert i == 2; }
    }
  }

  /** How many cells each pass on the row marks. */
  lemma RowCounts()
    ensures CountTrue([true, false, true]) == 2 && CountTrue([false, true, false]) == 1
  {
    assert [true, false, true][..2] == [true, false] && [true, false][..1] == [true];
    assert [false, true, false][..2] == [false, true] && [false, true][..1] == [false];
  }

  /** A row of three occupied cells with threshold 2: the two ends go in the
      first pass, which leaves the middle cell alone, so it goes in a second. */
  lemma RowOfThree()
    ensures AccessibleCount(Grid(3, [true, true, true]), 2) == 2
    ensures Removable(Grid(3, [true, true, true]), 2) == 3
  {
    var g, g1, g2 := Grid(3, [true, true, true]), Grid(3, [false, true, false]), Grid(3, [false, false, false]);
    RowFirstPass(g, g1);
    RowSecondPass(g1, g2);
    RowCounts();
    TwoPasses(g, 2, [true, false, true], g1, [false, true, false], g2);
  }
}

=== FILE: grid_parse.dfy ===
/** The text form of a grid: one line per row, `@` for an occupied cell and
    `.` for an empty one. */
module GridParse {
  import opened Machine
  import opened Results
  import opened DivMod
  import opened Text
  import opened Grids

  /** `char_to_cell`: `@` is occupied, `.` empty, and any other byte panics. */
  function CellOf(c: Byte): (r: Result<bool>)
    ensures r == Ok(true) <==> c == AT
    ensures r == Ok(false) <==> c == DOT
    ensures r == Err <==> c != AT && c != DOT
  {
    if c == AT then Ok(true) else if c == DOT then Ok(false) else Err
  }

  predicate IsCellByte(c: Byte)
  {
    c == AT || c == DOT
  }

  /** The cells a line describes, read as `@` or not. */
  function LineCells(line: seq<Byte>): (cells: seq<bool>)
    ensures |cells| == |line|
    ensures forall i :: 0 <= i < |line| ==> (cells[i] <==> line[i] == AT)
  {
    seq(|line|, i requires 0 <= i < |line| => line[i] == AT)
  }

  /** `line.bytes().map(char_to_cell)`: fails on the first byte that is
      neither `@` nor `.`. */
  function RowCells(line: seq<Byte>): (r: Result<seq<bool>>)
    ensures r.Ok? <==> forall i :: 0 <= i < |line| ==> IsCellByte(line[i])
    ensures r.Ok? ==> r.value == LineCells(line)
    decreases |line|
  {
    if |line| == 0 then Ok([])
    else
      var head, tail := CellOf(line[0]), RowCells(line[1..]);
      CellBytesCons(line);
      if head.Err? || tail.Err? then Err
      else
        LineCellsCons(line);
        Ok([head.value] + tail.value)
  }

  lemma LineCellsCons(line: seq<Byte>)
    requires |line| > 0
    ensures LineCells(line) == [line[0] == AT] + LineCells(line[1..])
  {
    assert forall i :: 1 <= i < |line| ==> line[i] == line[1..][i - 1];
  }

  /** A line is made of cell bytes when its first byte is one and the rest
      of the line is. */
  lemma CellBytesCons(line: seq<Byte>)
    requires |line| > 0
    ensures (forall i :: 0 <= i < |line| ==> IsCellByte(line[i]))
            <==> IsCellByte(line[0]) && forall i :: 0 <= i < |line| - 1 ==> IsCellByte(line[1..][i])
  {
    assert forall i :: 1 <= i < |line| ==> line[i] == line[1..][i - 1];
  }

  /** The cells of all lines, one line after the other. */
  function Flatten(lines: seq<seq<Byte>>): seq<bool>
  {
    if |lines| == 0 then [] else LineCells(lines[0]) + Flatten(lines[1..])
  }

  /** Every line is made of cell bytes. */
  predicate AllCellBytes(lines: seq<seq<Byte>>)
  {
    forall k, i :: 0 <= k < |lines| && 0 <= i < |lines[k]| ==> IsCellByte(lines[k][i])
  }

  /** After a non-empty line every later line has its length. */
  predicate SameWidths(lines: seq<seq<Byte>>)
  {
    forall i, j :: 0 <= i < j < |lines| && |lines[i]| > 0 ==> |lines[j]| == |lines[i]|
  }

  /** Every line has `width` bytes. */
  predicate AllWidth(lines: seq<seq<Byte>>, width: nat)
  {
    forall j :: 0 <= j < |lines| ==> |lines[j]| == width
  }

  /** The `inspect` and `flat_map` of `from_str`, line by line. `width` is 0
      until a non-empty line sets it; after that a line of another length
      panics. */
  function ParseRows(lines: seq<seq<Byte>>, width: nat, cells: seq<bool>): (r: Result<Grid>)
    requires width == 0 ==> cells == []
    requires width > 0 ==> |cells| % width == 0
    ensures r.Ok? ==> (r.value.width == 0 ==> r.value.cells == []) && (r.value.width > 0 ==> Valid(r.value))
    ensures r.Ok? && width > 0 ==> r.value.width == width
    ensures r.Ok? && width == 0 && |lines| > 0 && |lines[0]| > 0 ==> r.value.width == |lines[0]|
    decreases |lines|
  {
    if |lines| == 0 then Ok(Grid(width, cells))
    else
      var line := lines[0];
      var len := |line|;
      if width != 0 && len != width then Err
      else
        match RowCells(line)
        case Err => Err
        case Ok(row) =>
          var nextWidth := if width == 0 then len else width;
          ShapeStep(|cells|, width, nextWidth);
          ParseRows(lines[1..], nextWidth, cells + row)
  }

  /** `from_str` succeeds exactly when every byte is a cell byte and, once a
      line has set the width, every later line has that width. */
  lemma {:induction false} ParseRowsAccepts(lines: seq<seq<Byte>>, width: nat, cells: seq<bool>)
    requires width == 0 ==> cells == []
    requires width > 0 ==> |cells| % width == 0
    ensures width > 0 ==> (ParseRows(lines, width, cells).Ok? <==> AllCellBytes(lines) && AllWidth(lines, width))
    ensures width == 0 ==> (ParseRows(lines, width, cells).Ok? <==> AllCellBytes(lines) && SameWidths(lines))
    decreases |lines|
  {
    if |lines| > 0 {
      var line := lines[0];
      if width == 0 || |line| == width {
        if RowCells(line).Ok? {
          var nextWidth := if width == 0 then |line| else width;
          ShapeStep(|cells|, width, nextWidth);
          var rest := cells + RowCells(line).value;
          ParseRowsAccepts(lines[1..], nextWidth, rest);
          ParseRowsStep(lines, width, ParseRows(lines[1..], nextWidth, rest).Ok?);
        } else {
          var i :| 0 <= i < |line| && !IsCellByte(line[i]);
        }
      }
    }
  }

  /** The parsed cells are those of the lines, one line after the other. */
  lemma {:induction false} ParseRowsCells(lines: seq<seq<Byte>>, width: nat, cells: seq<bool>)
    requires width == 0 ==> cells == []
    requires width > 0 ==> |cells| % width == 0
    ensures ParseRows(lines, width, cells).Ok? ==> ParseRows(lines, width, cells).value.cells == cells + Flatten(lines)
    decreases |lines|
  {
    if |lines| > 0 {
      var line := lines[0];
      if (width == 0 || |line| == width) && RowCells(line).Ok? {
        var nextWidth := if width == 0 then |line| else width;
        ShapeStep(|cells|, width, nextWidth);
        var row := RowCells(line).value;
        ParseRowsCells(lines[1..], nextWidth, cells + row);
        assert Flatten(lines) == row + Flatten(lines[1..]);
      }
    }
  }

  /** Appending a row of `next` cells keeps the number of cells a multiple
      of the width. */
  lemma ShapeStep(n: nat, width: nat, next: nat)
    requires width == 0 ==> n == 0
    requires width > 0 ==> n % width == 0 && next == width
    ensures next > 0 ==> (n + next) % next == 0
  {
    if next > 0 {
      ModAddMultiple(n, 1, next);
    }
  }

  /** How the conditions on `lines` split into the first line and the rest. */
  lemma ParseRowsStep(lines: seq<seq<Byte>>, width: nat, restOk: bool)
    requires |lines| > 0 && (width == 0 || |lines[0]| == width)
    requires forall i :: 0 <= i < |lines[0]| ==> IsCellByte(lines[0][i])
    requires var next := if width == 0 then |lines[0]| else width;
             next > 0 ==> (restOk <==> AllCellBytes(lines[1..]) && AllWidth(lines[1..], next))
    requires width == 0 && |lines[0]| == 0 ==> (restOk <==> AllCellBytes(lines[1..]) && SameWidths(lines[1..]))
    ensures width > 0 ==> (restOk <==> AllCellBytes(lines) && AllWidth(lines, width))
    ensures width == 0 ==> (restOk <==> AllCellBytes(lines) && SameWidths(lines))
  {
    var rest := lines[1..];
    assert forall k :: 1 <= k < |lines| ==> lines[k] == rest[k - 1];
    assert AllCellBytes(lines) <==> AllCellBytes(rest) by {
      if AllCellBytes(rest) {
        forall k, i | 0 <= k < |lines| && 0 <= i < |lines[k]| ensures IsCellByte(lines[k][i]) {
          if k > 0 {
            assert lines[k] == rest[k - 1];
          }
        }
      }
    }
    if width == 0 && |lines[0]| > 0 {
      if SameWidths(lines) {
        assert AllWidth(rest, |lines[0]|);
      }
    }
  }

  /** The width of a parsed grid is the length of every non-empty line; when
      no line is non-empty it is the width already set. */
  lemma {:induction false} ParseRowsWidth(lines: seq<seq<Byte>>, width: nat, cells: seq<bool>)
    requires width == 0 ==> cells == []
    requires width > 0 ==> |cells| % width == 0
    ensures var r := ParseRows(lines, width, cells);
            r.Ok? ==> forall k :: 0 <= k < |lines| && |lines[k]| > 0 ==> r.value.width == |lines[k]|
    ensures var r := ParseRows(lines, width, cells);
            r.Ok? && (forall k :: 0 <= k < |lines| ==> |lines[k]| == 0) ==> r.value.width == width
    decreases |lines|
  {
    if |lines| > 0 {
      var line := lines[0];
      if (width == 0 || |line| == width) && RowCells(line).Ok? {
        var nextWidth := if width == 0 then |line| else width;
        ShapeStep(|cells|, width, nextWidth);
        var rest := lines[1..];
        ParseRowsWidth(rest, nextWidth, cells + RowCells(line).value);
        assert forall k :: 1 <= k < |lines| ==> lines[k] == rest[k - 1];
      }
    }
  }

  /** `Grid::from_str`: the lines of the text, parsed row by row. The width is
      the length of the non-empty lines, and 0 when there is none. */
  function ParseGrid(s: seq<Byte>): (r: Result<Grid>)
    ensures r.Ok? <==> AllCellBytes(Lines(s)) && SameWidths(Lines(s))
    ensures r.Ok? ==> r.value.cells == Flatten(Lines(s))
    ensures r.Ok? ==> forall k :: 0 <= k < |Lines(s)| && |Lines(s)[k]| > 0 ==> r.value.width == |Lines(s)[k]|
    ensures r.Ok? && (forall k :: 0 <= k < |Lines(s)| ==> |Lines(s)[k]| == 0) ==> r.value.width == 0
    ensures r.Ok? && r.value.width == 0 ==> r.value.cells == []
    ensures r.Ok? && r.value.width > 0 ==> Valid(r.value)
  {
    ParseRowsAccepts(Lines(s), 0, []);
    ParseRowsCells(Lines(s), 0, []);
    ParseRowsWidth(Lines(s), 0, []);
    ParseRows(Lines(s), 0, [])
  }

  /** Lines of equal width hold their cells row by row. */
  lemma {:induction false} FlattenLength(lines: seq<seq<Byte>>, width: nat)
    requires AllWidth(lines, width)
    ensures |Flatten(lines)| == |lines| * width
  {
    if |lines| > 0 {
      var rest := lines[1..];
      assert AllWidth(rest, width) by {
        assert forall k :: 0 <= k < |rest| ==> rest[k] == lines[k + 1];
      }
      FlattenLength(rest, width);
      MulAddRight(|rest|, 1, width);
    }
  }

  lemma {:induction false} FlattenRowMajor(lines: seq<seq<Byte>>, width: nat, x: nat, y: nat)
    requires AllWidth(lines, width) && x < width && y < |lines|
    ensures |Flatten(lines)| == |lines| * width
    ensures y * width + x < |Flatten(lines)|
    ensures Flatten(lines)[y * width + x] <==> lines[y][x] == AT
  {
    FlattenLength(lines, width);
    RowEnd(x, y, width, |lines|);
    var rest := lines[1..];
    assert Flatten(lines) == LineCells(lines[0]) + Flatten(rest);
    if y > 0 {
      assert AllWidth(rest, width) by {
        assert forall k :: 0 <= k < |rest| ==> rest[k] == lines[k + 1];
      }
      FlattenRowMajor(rest, width, x, y - 1);
      assert y * width + x == width + ((y - 1) * width + x) by {
        MulAddRight(y - 1, 1, width);
      }
      assert rest[y - 1] == lines[y];
    }
  }

  /** Once a grid has parsed from text whose first line is not empty, cell
      `(x, y)` is occupied exactly when byte `x` of line `y` is `@`. */
  lemma ParsedCell(s: seq<Byte>, x: nat, y: nat)
    requires ParseGrid(s).Ok? && |Lines(s)| > 0 && |Lines(s)[0]| > 0
    requires var g := ParseGrid(s).value; g.width > 0 && InBounds(g, x, y)
    ensures var g := ParseGrid(s).value; y < |Lines(s)| && x < |Lines(s)[y]|
    ensures var g := ParseGrid(s).value; At(g, x, y) <==> Lines(s)[y][x] == AT
  {
    var g, lines := ParseGrid(s).value, Lines(s);
    assert g.width == |lines[0]|;
    assert AllWidth(lines, g.width);
    assert |g.cells| == |lines| * g.width by {
      FlattenRowMajor(lines, g.width, 0, 0);
    }
    assert y < |lines| by {
      if y >= |lines| {
        MulAtLeastMono(y, |lines|, g.width);
        IndexInBounds(g, x, y);
      }
    }
    FlattenRowMajor(lines, g.width, x, y);
  }

  /** The text line of a row of cells. */
  function RowText(row: seq<bool>): (line: seq<Byte>)
    ensures |line| == |row|
    ensures LineCells(line) == row
    ensures forall i :: 0 <= i < |line| ==> IsCellByte(line[i])
  {
    seq(|row|, i requires 0 <= i < |row| => if row[i] then AT else DOT)
  }

  /** A non-empty multiple of `width` is at least `width`. */
  lemma MultipleAtLeast(n: nat, width: nat)
    requires 0 < n && 0 < width && n % width == 0
    ensures width <= n && (n - width) % width == 0
  {
    if n < width {
      DivModUnique(n, width, 0, n);
    }
    ModAddMultiple(n - width, 1, width);
  }

  /** The text lines of `cells`, `width` cells to a line. */
  function RowsOf(cells: seq<bool>, width: nat): (rows: seq<seq<Byte>>)
    requires width > 0 && |cells| % width == 0
    ensures AllWidth(rows, width) && AllCellBytes(rows)
    ensures Flatten(rows) == cells
    decreases |cells|
  {
    if |cells| == 0 then []
    else
      MultipleAtLeast(|cells|, width);
      var rest := RowsOf(cells[width..], width);
      var rows := [RowText(cells[..width])] + rest;
      assert rows[1..] == rest;
      assert forall k :: 1 <= k < |rows| ==> rows[k] == rest[k - 1];
      assert cells == cells[..width] + cells[width..];
      rows
  }

  /** The text of a grid: each row on its own line, each line ended by `\n`. */
  function Render(g: Grid): seq<Byte>
    requires Valid(g)
  {
    JoinLines(RowsOf(g.cells, g.width))
  }

  /** Parsing the text of a grid with at least one cell gives the grid back. */
  lemma ParseRender(g: Grid)
    requires Valid(g) && |g.cells| > 0
    ensures ParseGrid(Render(g)) == Ok(g)
  {
    var rows := RowsOf(g.cells, g.width);
    forall k | 0 <= k < |rows| ensures IsPlainLine(rows[k]) {
      assert forall i :: 0 <= i < |rows[k]| ==> IsCellByte(rows[k][i]);
    }
    LinesJoinLines(rows);
    assert SameWidths(rows);
  }
}

=== FILE: grids.dfy ===
/** A rectangular grid of cells, each occupied or empty, stored row by row,
    and the number of occupied cells around a cell. */
module Grids {
  import opened DivMod
  import opened Results

  /** `width` cells per row; row `y` holds `cells[y * width .. (y + 1) * width]`. */
  datatype Grid = Grid(width: nat, cells: seq<bool>)

  /** The shape every grid the parser builds from a non-empty picture has:
      a positive width dividing the number of cells. */
  predicate Valid(g: Grid)
  {
    g.width > 0 && |g.cells| % g.width == 0
  }

  /** `height`: the number of rows, the cell count divided by the width, which
      must not be 0. */
  function Height(g: Grid): (h: nat)
    requires g.width > 0
    ensures Valid(g) ==> h * g.width == |g.cells|
    ensures h * g.width <= |g.cells|
  {
    |g.cells| / g.width
  }

  /** `height` on any grid: dividing by a zero width panics. */
  function HeightChecked(g: Grid): (r: Result<nat>)
    ensures r.Err? <==> g.width == 0
    ensures r.Ok? ==> r.value * g.width <= |g.cells| < (r.value + 1) * g.width
  {
    if g.width == 0 then Err
    else
      RowMajor(|g.cells| % g.width, |g.cells| / g.width, g.width);
      Ok(Height(g))
  }

  /** `(x, y)` lies inside the grid. */
  predicate InBounds(g: Grid, x: int, y: int)
    requires g.width > 0
  {
    0 <= x < g.width && 0 <= y < Height(g)
  }

  /** Inside the grid the row-major index is below the number of cells. */
  lemma IndexInBounds(g: Grid, x: nat, y: nat)
    requires g.width > 0 && InBounds(g, x, y)
    ensures y * g.width + x < |g.cells|
  {
    RowEnd(x, y, g.width, Height(g));
  }

  /** `cell`: the entry at the row-major index, which must exist. */
  function Cell(g: Grid, x: nat, y: nat): bool
    requires y * g.width + x < |g.cells|
  {
    g.cells[y * g.width + x]
  }

  /** `cell` on any coordinates: an index past the cells panics. A position
      outside the row, `x >= width`, is not checked and reads a cell of a
      later row. */
  function CellChecked(g: Grid, x: nat, y: nat): (r: Result<bool>)
    ensures r.Ok? <==> y * g.width + x < |g.cells|
    ensures r.Ok? ==> r.value == g.cells[y * g.width + x]
  {
    if y * g.width + x < |g.cells| then Ok(Cell(g, x, y)) else Err
  }

  /** `*cell_mut(x, y) = v` on any coordinates: an index past the cells panics. */
  function StoreChecked(g: Grid, x: nat, y: nat, v: bool): (r: Result<Grid>)
    ensures r.Ok? <==> y * g.width + x < |g.cells|
    ensures r.Ok? ==> r.value.width == g.width && |r.value.cells| == |g.cells|
    ensures r.Ok? ==> forall i :: 0 <= i < |g.cells| ==>
                        r.value.cells[i] == if i == y * g.width + x then v else g.cells[i]
  {
    if y * g.width + x < |g.cells| then Ok(SetCell(g, x, y, v)) else Err
  }

  /** A store is read back at its own index, and any other index reads as
      before. */
  lemma StoreThenRead(g: Grid, x: nat, y: nat, v: bool, ax: nat, ay: nat)
    requires StoreChecked(g, x, y, v).Ok?
    ensures CellChecked(StoreChecked(g, x, y, v).value, x, y) == Ok(v)
    ensures ay * g.width + ax != y * g.width + x ==>
              CellChecked(StoreChecked(g, x, y, v).value, ax, ay) == CellChecked(g, ax, ay)
  {
  }

  /** `cell` at a position inside the grid. */
  function At(g: Grid, x: nat, y: nat): bool
    requires g.width > 0 && InBounds(g, x, y)
  {
    IndexInBounds(g, x, y);
    Cell(g, x, y)
  }

  /** `cell_mut` followed by a store: the cell at the row-major index becomes
      `v` and every other cell keeps its value. */
  function SetCell(g: Grid, x: nat, y: nat, v: bool): (r: Grid)
    requires y * g.width + x < |g.cells|
    ensures r.width == g.width && |r.cells| == |g.cells|
    ensures r.cells[y * g.width + x] == v
    ensures forall i :: 0 <= i < |g.cells| && i != y * g.width + x ==> r.cells[i] == g.cells[i]
  {
    Grid(g.width, g.cells[y * g.width + x := v])
  }

  /** `cell_mut` followed by a store at a position inside the grid. */
  function Put(g: Grid, x: nat, y: nat, v: bool): (r: Grid)
    requires g.width > 0 && InBounds(g, x, y)
    ensures r.width == g.width && |r.cells| == |g.cells|
  {
    IndexInBounds(g, x, y);
    SetCell(g, x, y, v)
  }

  /** Inside the grid, a store at `(x, y)` is seen at `(x, y)` and nowhere else. */
  lemma AtAfterPut(g: Grid, x: nat, y: nat, v: bool, ax: nat, ay: nat)
    requires g.width > 0 && InBounds(g, x, y) && InBounds(g, ax, ay)
    ensures At(Put(g, x, y, v), ax, ay) == if ax == x && ay == y then v else At(g, ax, ay)
  {
    IndexInBounds(g, x, y);
    IndexInBounds(g, ax, ay);
    if ay * g.width + ax == y * g.width + x {
      RowMajor(x, y, g.width);
      RowMajor(ax, ay, g.width);
    }
  }

  /** 1 when `(ax, ay)` is an occupied cell of the grid, 0 when it is empty or
      outside. */
  function Occupied(g: Grid, ax: int, ay: int): nat
    requires g.width > 0
  {
    if InBounds(g, ax, ay) && At(g, ax, ay) then 1 else 0
  }

  /** The occupied cells among the eight that surround `(x, y)`. */
  function NeighbourCount(g: Grid, x: int, y: int): nat
    requires g.width > 0
  {
    Occupied(g, x - 1, y - 1) + Occupied(g, x, y - 1) + Occupied(g, x + 1, y - 1)
    + Occupied(g, x - 1, y) + Occupied(g, x + 1, y)
    + Occupied(g, x - 1, y + 1) + Occupied(g, x, y + 1) + Occupied(g, x + 1, y + 1)
  }

  /** `(ax, ay)` is one of the eight cells around `(x, y)`. */
  predicate Adjacent(x: int, y: int, ax: int, ay: int)
  {
    (ax, ay) != (x, y) && -1 <= ax - x <= 1 && -1 <= ay - y <= 1
  }

  /** The occupied cells of the grid adjacent to `(x, y)`. */
  ghost function Neighbours(g: Grid, x: int, y: int): set<(int, int)>
    requires g.width > 0
  {
    set ax: int, ay: int | x - 1 <= ax <= x + 1 && y - 1 <= ay <= y + 1
                           && Adjacent(x, y, ax, ay) && InBounds(g, ax, ay) && At(g, ax, ay)
      :: (ax, ay)
  }

  /** Membership in `Neighbours`, position by position. */
  lemma InNeighbours(g: Grid, x: int, y: int, ax: int, ay: int)
    requires g.width > 0
    ensures (ax, ay) in Neighbours(g, x, y)
            <==> Adjacent(x, y, ax, ay) && InBounds(g, ax, ay) && At(g, ax, ay)
  {
  }

  /** The eight positions around `(x, y)`, row by row. */
  function Around(x: int, y: int): (ps: seq<(int, int)>)
    ensures |ps| == 8
    ensures forall i, j :: 0 <= i < j < |ps| ==> ps[i] != ps[j]
    ensures forall i :: 0 <= i < |ps| ==> Adjacent(x, y, ps[i].0, ps[i].1)
  {
    [(x - 1, y - 1), (x, y - 1), (x + 1, y - 1),
     (x - 1, y), (x + 1, y),
     (x - 1, y + 1), (x, y + 1), (x + 1, y + 1)]
  }

  /** Every position adjacent to `(x, y)` is one of the eight. */
  lemma AroundComplete(x: int, y: int, ax: int, ay: int)
    requires Adjacent(x, y, ax, ay)
    ensures (ax, ay) in Around(x, y)
  {
  }

  /** How many of the positions `ps` are occupied cells of the grid. */
  function CountOccupied(g: Grid, ps: seq<(int, int)>): nat
    requires g.width > 0
  {
    if |ps| == 0 then 0 else Occupied(g, ps[0].0, ps[0].1) + CountOccupied(g, ps[1..])
  }

  /** The positions of `ps` that are occupied cells of the grid. */
  ghost function OccupiedAmong(g: Grid, ps: seq<(int, int)>): set<(int, int)>
    requires g.width > 0
  {
    set p | p in ps && Occupied(g, p.0, p.1) == 1
  }

  /** Over distinct positions the count is the size of the set it counts. */
  lemma {:induction false} CountOccupiedCard(g: Grid, ps: seq<(int, int)>)
    requires g.width > 0
    requires forall i, j :: 0 <= i < j < |ps| ==> ps[i] != ps[j]
    ensures CountOccupied(g, ps) == |OccupiedAmong(g, ps)|
  {
    if |ps| > 0 {
      var rest := ps[1..];
      CountOccupiedCard(g, rest);
      assert ps[0] !in rest by {
        forall j | 0 <= j < |rest| ensures rest[j] != ps[0] {
          assert rest[j] == ps[j + 1];
        }
      }
      assert ps == [ps[0]] + rest;
      if Occupied(g, ps[0].0, ps[0].1) == 1 {
        assert OccupiedAmong(g, ps) == {ps[0]} + OccupiedAmong(g, rest);
      } else {
        assert OccupiedAmong(g, ps) == OccupiedAmong(g, rest);
      }
    }
  }

  /** The reference count is the number of occupied cells adjacent to `(x, y)`. */
  lemma NeighbourCountIsNeighbours(g: Grid, x: int, y: int)
    requires g.width > 0
    ensures NeighbourCount(g, x, y) == |Neighbours(g, x, y)|
  {
    var ps := Around(x, y);
    assert NeighbourCount(g, x, y) == CountOccupied(g, ps) by {
      assert CountOccupied(g, ps[8..]) == 0;
      assert CountOccupied(g, ps[7..]) == Occupied(g, ps[7].0, ps[7].1) + CountOccupied(g, ps[8..]);
      assert CountOccupied(g, ps[6..]) == Occupied(g, ps[6].0, ps[6].1) + CountOccupied(g, ps[7..]);
      assert CountOccupied(g, ps[5..]) == Occupied(g, ps[5].0, ps[5].1) + CountOccupied(g, ps[6..]);
      assert CountOccupied(g, ps[4..]) == Occupied(g, ps[4].0, ps[4].1) + CountOccupied(g, ps[5..]);
      assert CountOccupied(g, ps[3..]) == Occupied(g, ps[3].0, ps[3].1) + CountOccupied(g, ps[4..]);
      assert CountOccupied(g, ps[2..]) == Occupied(g, ps[2].0, ps[2].1) + CountOccupied(g, ps[3..]);
      assert CountOccupied(g, ps[1..]) == Occupied(g, ps[1].0, ps[1].1) + CountOccupied(g, ps[2..]);
      assert CountOccupied(g, ps[0..]) == Occupied(g, ps[0].0, ps[0].1) + CountOccupied(g, ps[1..]);
      assert ps[0..] == ps;
    }
    CountOccupiedCard(g, ps);
    forall p | p in Neighbours(g, x, y) ensures p in OccupiedAmong(g, ps) {
      InNeighbours(g, x, y, p.0, p.1);
      AroundComplete(x, y, p.0, p.1);
    }
    forall p | p in OccupiedAmong(g, ps) ensures p in Neighbours(g, x, y) {
      InNeighbours(g, x, y, p.0, p.1);
    }
    assert Neighbours(g, x, y) == OccupiedAmong(g, ps);
  }

  /** Between two occupied cells, each counts the other or neither does. */
  lemma NeighbourSymmetric(g: Grid, x: int, y: int, ax: int, ay: int)
    requires g.width > 0
    requires InBounds(g, x, y) && At(g, x, y) && InBounds(g, ax, ay) && At(g, ax, ay)
    ensures (ax, ay) in Neighbours(g, x, y) <==> (x, y) in Neighbours(g, ax, ay)
    ensures (x, y) !in Neighbours(g, x, y)
  {
    InNeighbours(g, x, y, ax, ay);
    InNeighbours(g, ax, ay, x, y);
    InNeighbours(g, x, y, x, y);
  }

  /** The inner loop of `adjacent_count`: rows `ay..=y2` of column `ax`,
      skipping `(x, y)` itself. */
  function ColumnCount(g: Grid, x: nat, y: nat, ax: nat, ay: nat, y2: nat): nat
    requires g.width > 0 && ax < g.width && y2 < Height(g)
    decreases y2 + 1 - ay
  {
    if ay > y2 then 0
    else
      var here := if ax == x && ay == y then 0 else if At(g, ax, ay) then 1 else 0;
      here + ColumnCount(g, x, y, ax, ay + 1, y2)
  }

  /** The outer loop of `adjacent_count`: columns `ax..=x2`. */
  function BlockCount(g: Grid, x: nat, y: nat, ax: nat, x2: nat, y1: nat, y2: nat): nat
    requires g.width > 0 && x2 < g.width && y2 < Height(g)
    decreases x2 + 1 - ax
  {
    if ax > x2 then 0
    else ColumnCount(g, x, y, ax, y1, y2) + BlockCount(g, x, y, ax + 1, x2, y1, y2)
  }

  /** `adjacent_count`: the block from one before to one after `(x, y)` in each
      direction, clamped to the grid, without `(x, y)` itself. The clamps
      compute `width - 1` and `height - 1`, so `(x, y)` must be a cell. The
      result is the number of occupied cells around `(x, y)`. */
  function AdjacentCount(g: Grid, x: nat, y: nat): (r: nat)
    requires g.width > 0 && InBounds(g, x, y)
    ensures r == NeighbourCount(g, x, y)
    ensures r <= 8
  {
    var width, height := g.width, Height(g);
    var x1 := if x > 0 then x - 1 else x;
    var y1 := if y > 0 then y - 1 else y;
    var x2 := if x < width - 1 then x + 1 else x;
    var y2 := if y < height - 1 then y + 1 else y;
    BlockMatches(g, x, y, x1, x2, y1, y2);
    BlockCount(g, x, y, x1, x2, y1, y2)
  }

  /** `adjacent_count` is the number of occupied cells adjacent to `(x, y)`. */
  lemma AdjacentCountNeighbours(g: Grid, x: nat, y: nat)
    requires g.width > 0 && InBounds(g, x, y)
    ensures AdjacentCount(g, x, y) == |Neighbours(g, x, y)|
  {
    NeighbourCountIsNeighbours(g, x, y);
  }

  /** The reference count of column `ax` around `(x, y)`. */
  function ColumnRef(g: Grid, x: int, y: int, ax: int): nat
    requires g.width > 0
  {
    (if ax == x then 0 else Occupied(g, ax, y)) + Occupied(g, ax, y - 1) + Occupied(g, ax, y + 1)
  }

  /** The clamped block adds up the reference counts of the three columns;
      a column clamped away lies outside the grid and counts 0. */
  lemma BlockMatches(g: Grid, x: nat, y: nat, x1: nat, x2: nat, y1: nat, y2: nat)
    requires g.width > 0 && InBounds(g, x, y)
    requires x1 == (if x > 0 then x - 1 else x) && x2 == (if x < g.width - 1 then x + 1 else x)
    requires y1 == (if y > 0 then y - 1 else y) && y2 == (if y < Height(g) - 1 then y + 1 else y)
    ensures BlockCount(g, x, y, x1, x2, y1, y2)
            == ColumnRef(g, x, y, x - 1) + ColumnRef(g, x, y, x) + ColumnRef(g, x, y, x + 1)
  {
    ColumnMatches(g, x, y, x, y1, y2);
    var right := BlockCount(g, x, y, x, x2, y1, y2);
    assert BlockCount(g, x, y, x2 + 1, x2, y1, y2) == 0;
    if x < x2 {
      ColumnMatches(g, x, y, x2, y1, y2);
      assert right == ColumnRef(g, x, y, x) + BlockCount(g, x, y, x2, x2, y1, y2);
    } else {
      assert ColumnRef(g, x, y, x + 1) == 0;
    }
    if x1 < x {
      ColumnMatches(g, x, y, x1, y1, y2);
    } else {
      assert ColumnRef(g, x, y, x - 1) == 0;
    }
  }

  /** One column of the clamped block, for a column `ax` at most one away from
      `x`: its count is that of the reference in the same column. */
  lemma ColumnMatches(g: Grid, x: nat, y: nat, ax: nat, y1: nat, y2: nat)
    requires g.width > 0 && InBounds(g, x, y) && ax < g.width && -1 <= ax - x <= 1
    requires y1 == (if y > 0 then y - 1 else y)
    requires y2 == (if y < Height(g) - 1 then y + 1 else y)
    ensures ColumnCount(g, x, y, ax, y1, y2) == ColumnRef(g, x, y, ax)
  {
    assert ColumnCount(g, x, y, ax, y2 + 1, y2) == 0;
    if y1 < y {
      assert ColumnCount(g, x, y, ax, y1, y2) == Occupied(g, ax, y1) + ColumnCount(g, x, y, ax, y, y2);
    }
    if y < y2 {
      assert ColumnCount(g, x, y, ax, y, y2)
             == (if ax == x then 0 else Occupied(g, ax, y)) + ColumnCount(g, x, y, ax, y2, y2);
      assert ColumnCount(g, x, y, ax, y2, y2) == Occupied(g, ax, y2);
    }
  }
}

=== FILE: id_examples.dfy ===
/** The literal cases of the two rules and of the range sums, worked out on
    the model. */
module IdExamples {
  import opened Ids
  import opened Numerals
  import opened DivMod
  import opened Results
  import opened Machine

  /** An id whose digits are two halves of equal length, without a leading
      zero, is invalid under the first rule exactly when the halves are equal. */
  lemma HalvesPart1(id: nat, hi: seq<nat>, lo: seq<nat>)
    requires |hi| == |lo| && |hi| >= 1 && hi[0] != 0
    requires Decimal(id) == hi + lo
    ensures id >= 1 && (IsInvalidPart1(id) <==> hi == lo)
  {
    InvalidPart1Spec(id);
    DoubledHalves(Decimal(id), hi, lo);
  }

  /** 11 and 1212 are a half written twice; 10, 12 and 1213 are not. */
  lemma Part1Example11()
    ensures IsInvalidPart1(11)
  {
    assert Decimal(11) == [1, 1];
    HalvesPart1(11, [1], [1]);
  }

  lemma Part1Example1212()
    ensures IsInvalidPart1(1212)
  {
    assert Decimal(1212) == [1, 2, 1, 2];
    HalvesPart1(1212, [1, 2], [1, 2]);
  }

  lemma Part1Example10()
    ensures !IsInvalidPart1(10)
  {
    assert Decimal(10) == [1, 0];
    HalvesPart1(10, [1], [0]);
  }

  lemma Part1Example12()
    ensures !IsInvalidPart1(12)
  {
    assert Decimal(12) == [1, 2];
    HalvesPart1(12, [1], [2]);
  }

  lemma Part1Example1213()
    ensures !IsInvalidPart1(1213)
  {
    assert Decimal(1213) == [1, 2, 1, 3];
    HalvesPart1(1213, [1, 2], [1, 3]);
  }

  /** An id of `2p` digits made of one block of `p` digits written twice is
      invalid under both rules. */
  lemma TwoBlocks(id: nat, block: nat, p: nat)
    requires p >= 1 && block < Pow10(p)
    requires id == block * Pow10(p) + block
    requires Pow10(2 * p - 1) <= id < Pow10(2 * p)
    ensures id >= 1 && IsInvalidPart1(id) && IsInvalidPart2(id)
  {
    TwoBlocksPart1(id, block, p);
    Part1ImpliesPart2(id);
  }

  /** The first rule on such an id: its `p` low digits are the block, shifted
      up by `p` digits and added they give the id back. */
  lemma TwoBlocksPart1(id: nat, block: nat, p: nat)
    requires p >= 1 && block < Pow10(p)
    requires id == block * Pow10(p) + block
    requires Pow10(2 * p - 1) <= id < Pow10(2 * p)
    ensures id >= 1 && IsInvalidPart1(id)
  {
    var m := Pow10(p);
    assert DigitCount(id) == 2 * p by {
      ILog10Unique(id, 2 * p - 1);
    }
    assert id % m == block by {
      DivModUnique(id, m, block, block);
    }
    assert (2 * p) % 2 == 0 && (2 * p) / 2 == p;
  }

  /** 123123 is a block written twice. */
  lemma Part2Example123123()
    ensures IsInvalidPart2(123123)
  {
    assert Pow10(3) == 1000 && Pow10(5) == 100000 && Pow10(6) == 1000000;
    TwoBlocks(123123, 123, 3);
  }

  /** An id of `3p` digits made of one block of `p` digits written three
      times passes the second rule with part length `p`. */
  lemma ThreeBlocks(id: nat, block: nat, p: nat)
    requires p >= 1 && block < Pow10(p)
    requires id == (block * Pow10(p) + block) * Pow10(p) + block
    requires Pow10(3 * p - 1) <= id < Pow10(3 * p)
    ensures id >= 1 && IsInvalidPart2(id)
  {
    var m := Pow10(p);
    ILog10Unique(id, 3 * p - 1);
    assert DigitCount(id) == 3 * p;
    var upper := block * m + block;
    DivModUnique(id, m, upper, block);
    DivModUnique(upper, m, block, block);
    DivModUnique(block, m, 0, block);
    DivModUnique(3 * p, p, 3, 0);
    assert LaterGroupsMatch(id, m, block, 2);
    assert IsRepeatingPartLen(id, 3 * p, p);
    SomePartLenFromSpec(id, 3 * p, 1);
  }

  /** 111, 121212 and 123123123 repeat a block; 121, 122 and 21 do not. */
  lemma Part2Example111()
    ensures IsInvalidPart2(111)
  {
    ThreeBlocks(111, 1, 1);
  }

  lemma Part2Example121()
    ensures !IsInvalidPart2(121)
  {
    assert DigitCount(121) == 3 by { assert Decimal(121) == [1, 2, 1]; }
    assert !LaterGroupsMatch(121, 10, 1, 2) by {
      assert 121 / 10 == 12;
    }
  }

  lemma Part2Example122()
    ensures !IsInvalidPart2(122)
  {
    assert DigitCount(122) == 3 by { assert Decimal(122) == [1, 2, 2]; }
    assert !LaterGroupsMatch(122, 10, 2, 2) by {
      assert 122 / 10 == 12 && 12 / 10 == 1;
    }
  }

  lemma Part2Example21()
    ensures !IsInvalidPart2(21)
  {
    assert DigitCount(21) == 2 by { assert Decimal(21) == [2, 1]; }
    assert !LaterGroupsMatch(21, 10, 1, 1) by {
      assert 21 / 10 == 2;
    }
  }

  lemma Part2Example121212()
    ensures IsInvalidPart2(121212)
  {
    assert Pow10(2) == 100 && Pow10(5) == 100000 && Pow10(6) == 1000000;
    ThreeBlocks(121212, 12, 2);
  }

  lemma Part2Example123123123()
    ensures IsInvalidPart2(123123123)
  {
    assert Pow10(3) == 1000 && Pow10(8) == 100000000 && Pow10(9) == 1000000000;
    ThreeBlocks(123123123, 123, 3);
  }

  /** Both rules on a two-digit id: its two digits are equal. */
  lemma TwoDigitRules(x: nat)
    requires 10 <= x < 100
    ensures InvalidUnderPart1(x) <==> x / 10 == x % 10
    ensures InvalidUnderPart2(x) <==> x / 10 == x % 10
  {
    assert Decimal(x) == Decimal(x / 10) + [x % 10];
    assert DigitCount(x) == 2;
    assert Pow10(1) == 10;
    assert x == (x / 10) * 10 + x % 10;
    assert IsRepeatingPartLen(x, 2, 1) <==> x / 10 == x % 10;
  }
  /** On a three-digit id the first rule fails and the second asks for three
      equal digits. */
  lemma ThreeDigitRules(x: nat)
    requires 100 <= x < 1000
    ensures !InvalidUnderPart1(x)
    ensures InvalidUnderPart2(x) <==> x / 100 == (x / 10) % 10 == x % 10
  {
    assert Decimal(x) == Decimal(x / 10) + [x % 10];
    assert Decimal(x / 10) == Decimal(x / 100) + [(x / 10) % 10] by {
      assert x / 10 / 10 == x / 100;
    }
    assert DigitCount(x) == 3;
    assert Pow10(1) == 10;
    assert x / 10 / 10 == x / 100;
    assert IsRepeatingPartLen(x, 3, 1) <==> x / 100 == (x / 10) % 10 == x % 10;
  }
  /** Ids below `mid` that fail `p` contribute nothing. */
  lemma {:induction false} FilterNone(lo: nat, mid: nat, hi: nat, p: nat -> bool)
    requires lo <= mid <= hi + 1
    requires forall x :: lo <= x < mid ==> !p(x)
    ensures FilterRange(lo, hi, p) == FilterRange(mid, hi, p)
    decreases mid - lo
  {
    if lo < mid {
      FilterNone(lo + 1, mid, hi, p);
    }
  }
  /** The only id of `lo..=hi` satisfying `p` is `a`. */
  lemma FilterOne(lo: nat, a: nat, hi: nat, p: nat -> bool)
    requires lo <= a <= hi
    requires forall x :: lo <= x <= hi ==> (p(x) <==> x == a)
    ensures FilterRange(lo, hi, p) == [a]
  {
    FilterNone(lo, a, hi, p);
    FilterNone(a + 1, hi + 1, hi, p);
  }

  /** The only ids of `lo..=hi` satisfying `p` are `a < b`. */
  lemma FilterTwo(lo: nat, a: nat, b: nat, hi: nat, p: nat -> bool)
    requires lo <= a < b <= hi
    requires forall x :: lo <= x <= hi ==> (p(x) <==> x == a || x == b)
    ensures FilterRange(lo, hi, p) == [a, b]
  {
    FilterNone(lo, a, hi, p);
    FilterOne(a + 1, b, hi, p);
  }

  /** In `95..=115` only 99 is invalid under the first rule. */
  lemma InvalidExamplePart1()
    ensures FilterRange(95, 115, InvalidUnderPart1) == [99]
  {
    forall x | 95 <= x <= 115 ensures InvalidUnderPart1(x) <==> x == 99 {
      if x < 100 { TwoDigitRules(x); } else { ThreeDigitRules(x); }
    }
    FilterOne(95, 99, 115, InvalidUnderPart1);
  }

  /** In `95..=115` 99 and 111 are invalid under the second rule. */
  lemma InvalidExamplePart2()
    ensures FilterRange(95, 115, InvalidUnderPart2) == [99, 111]
  {
    forall x | 95 <= x < 100 ensures InvalidUnderPart2(x) <==> x == 99 {
      TwoDigitRules(x);
    }
    forall x | 100 <= x <= 115 ensures InvalidUnderPart2(x) <==> x == 111 {
      ThreeDigitRules(x);
    }
    FilterTwo(95, 99, 111, 115, InvalidUnderPart2);
  }

  /** The first-rule sum of a range not starting at 0 whose invalid ids are known. */
  lemma SumPart1Of(r: IdRange, ids: seq<nat>)
    requires r.first >= 1
    requires InvalidIds(r, InvalidUnderPart1) == ids && Sum(ids) < U64_LIMIT
    ensures InvalidIdsSumPart1(r) == Ok(Sum(ids))
  {
  }

  /** The second-rule sum of a range not starting at 0 whose invalid ids are known. */
  lemma SumPart2Of(r: IdRange, ids: seq<nat>)
    requires r.first >= 1
    requires InvalidIds(r, InvalidUnderPart2) == ids && Sum(ids) < U64_LIMIT
    ensures InvalidIdsSumPart2(r) == Ok(Sum(ids))
  {
  }

  /** The first-rule sum over `95..=115`, the range built by `IdRange::new`. */
  lemma SumExamplePart1()
    ensures NewIdRange(95, 115).Ok?
    ensures InvalidIdsSumPart1(NewIdRange(95, 115).value) == Ok(99)
  {
    var r := NewIdRange(95, 115).value;
    InvalidExamplePart1();
    assert Sum([99]) == 99;
    SumPart1Of(r, [99]);
  }

  /** The second-rule sum over `95..=115`, the range built by `IdRange::new`. */
  lemma SumExamplePart2()
    ensures NewIdRange(95, 115).Ok?
    ensures InvalidIdsSumPart2(NewIdRange(95, 115).value) == Ok(99 + 111)
  {
    var r := NewIdRange(95, 115).value;
    InvalidExamplePart2();
    assert Sum([99, 111]) == 99 + 111;
    SumPart2Of(r, [99, 111]);
  }
}

=== FILE: ids.dfy ===
/** Product ids that repeat a block of digits. An id is invalid for the first
    rule when its decimal digits are one half written twice, and for the second
    rule when they are one block written two or more times. An `IdRange` sums
    the invalid ids between its two bounds. */
module Ids {
  import opened Machine
  import opened Results
  import opened DivMod
  import opened Numerals
  import Text

  /** `id.ilog10() + 1`, the number of decimal digits of `id`. */
  function DigitCount(id: nat): (len: nat)
    requires id >= 1
    ensures len == |Decimal(id)|
  {
    DecimalIsDigits(id);
    ILog10(id) + 1
  }

  /** First rule, as `is_invalid_part1` computes it: an even number of digits, and the
      number equals its lower half shifted up by half the digits plus itself. */
  predicate IsInvalidPart1(id: nat): (b: bool)
    requires id >= 1
    ensures b <==> DigitCount(id) % 2 == 0
                   && id / Pow10(DigitCount(id) / 2) == id % Pow10(DigitCount(id) / 2)
  {
    var len := DigitCount(id);
    if len % 2 != 0 then false
    else
      var m := Pow10(len / 2);
      var secondHalf := id % m;
      assert id < m * m by {
        DecimalIsDigits(id);
        Pow10Add(len / 2, len / 2);
      }
      HalvesEqual(id, m);
      id == secondHalf * m + secondHalf
  }

  /** The inner loop of the second rule: dividing `tmp` by `m` once per
      remaining group, each of the next `count` groups equals `ref`. */
  predicate LaterGroupsMatch(tmp: nat, m: nat, ref: nat, count: nat)
    requires m > 0
    decreases count
  {
    count == 0 || ((tmp / m) % m == ref && LaterGroupsMatch(tmp / m, m, ref, count - 1))
  }

  /** Part length `p` divides the digit count and every group of `p` digits
      equals the rightmost one. */
  predicate IsRepeatingPartLen(id: nat, len: nat, p: nat)
    requires 1 <= p <= len
  {
    len % p == 0 && LaterGroupsMatch(id, Pow10(p), id % Pow10(p), len / p - 1)
  }

  /** The outer loop of the second rule: some part length in `p..=len/2` works. */
  predicate SomePartLenFrom(id: nat, len: nat, p: nat)
    requires p >= 1
    decreases len / 2 + 1 - p
  {
    if p > len / 2 then false
    else if IsRepeatingPartLen(id, len, p) then true
    else SomePartLenFrom(id, len, p + 1)
  }

  /** Second rule, as `is_invalid_part2` computes it. */
  predicate IsInvalidPart2(id: nat): (b: bool)
    requires id >= 1
    ensures b <==> exists q :: 1 <= q <= DigitCount(id) / 2 && IsRepeatingPartLen(id, DigitCount(id), q)
  {
    SomePartLenFromSpec(id, DigitCount(id), 1);
    SomePartLenFrom(id, DigitCount(id), 1)
  }

  // The rules stated on digit strings

  /** `block` written `n` times. */
  function Repeat<T>(block: seq<T>, n: nat): seq<T>
  {
    if n == 0 then [] else Repeat(block, n - 1) + block
  }

  lemma {:induction false} RepeatLength<T>(block: seq<T>, n: nat)
    ensures |Repeat(block, n)| == n * |block|
  {
    if n > 0 {
      RepeatLength(block, n - 1);
      assert n * |block| == (n - 1) * |block| + |block|;
    }
  }

  /** The digits are some half written twice. */
  ghost predicate IsDoubled(s: seq<nat>)
  {
    exists half: seq<nat> :: s == Repeat(half, 2)
  }

  /** The digits are some block written at least twice. */
  ghost predicate IsRepetition(s: seq<nat>)
  {
    exists block: seq<nat>, n: nat :: 2 <= n && s == Repeat(block, n)
  }

  lemma RepeatTwice<T>(half: seq<T>)
    ensures Repeat(half, 2) == half + half
  {
    assert Repeat(half, 1) == half;
  }

  lemma ConcatEqual<T>(a: seq<T>, b: seq<T>, c: seq<T>, d: seq<T>)
    requires |a| == |c|
    ensures a + b == c + d <==> a == c && b == d
  {
    if a + b == c + d {
      assert a == (a + b)[..|a|] && c == (c + d)[..|c|];
      assert b == (a + b)[|a|..] && d == (c + d)[|c|..];
    }
  }

  /** With `id < m * m`, the comparison of `is_invalid_part1` holds exactly when the high
      half `id / m` equals the low half `id % m`. */
  lemma HalvesEqual(id: nat, m: nat)
    requires 0 < m && id < m * m
    ensures id == (id % m) * m + id % m <==> id / m == id % m
    ensures id / m < m
  {
    RowBound(id, m, m);
    if id == (id % m) * m + id % m {
      DivModUnique(id, m, id % m, id % m);
    }
  }

  /** The `2k` digits of `id` are two equal halves exactly when the high half
      `id / 10^k` equals the low half `id % 10^k`. */
  lemma DigitHalves(id: nat, k: nat)
    requires id < Pow10(k + k)
    ensures Digits(id, k + k) == Digits(Quot(id, Pow10(k)), k) + Digits(id, k)
    ensures Digits(Quot(id, Pow10(k)), k) == Digits(id, k) <==> Quot(id, Pow10(k)) == id % Pow10(k)
  {
    var m := Pow10(k);
    var hi := Quot(id, m);
    Pow10Add(k, k);
    DigitsSplit(id, k, k);
    RowBound(id, m, m);
    DigitsEqual(hi, id, k);
    DivModUnique(hi, m, 0, hi);
  }

  /** An even digit count `k + k`: the comparison of `is_invalid_part1` holds exactly when
      the high half of the digits equals the low half. */
  lemma EvenPart1Halves(id: nat, k: nat)
    requires id >= 1 && DigitCount(id) == k + k
    ensures Decimal(id) == Digits(Quot(id, Pow10(k)), k) + Digits(id, k)
    ensures IsInvalidPart1(id) <==> Digits(Quot(id, Pow10(k)), k) == Digits(id, k)
  {
    var m := Pow10(k);
    DecimalIsDigits(id);
    assert (k + k) / 2 == k;
    DigitHalves(id, k);
    Pow10Add(k, k);
    HalvesEqual(id, m);
  }

  /** Two pieces of equal length make a doubled string exactly when they are equal. */
  lemma DoubledHalves(s: seq<nat>, hi: seq<nat>, lo: seq<nat>)
    requires s == hi + lo && |hi| == |lo|
    ensures IsDoubled(s) <==> hi == lo
  {
    if IsDoubled(s) {
      var half: seq<nat> :| s == Repeat(half, 2);
      RepeatTwice(half);
      ConcatEqual(hi, lo, half, half);
    }
    if hi == lo {
      RepeatTwice(lo);
      assert s == Repeat(lo, 2);
    }
  }

  /** The first rule holds exactly when the decimal digits are a half written twice. */
  lemma InvalidPart1Spec(id: nat)
    requires id >= 1
    ensures IsInvalidPart1(id) <==> IsDoubled(Decimal(id))
  {
    var len := DigitCount(id);
    if len % 2 == 0 {
      var k := len / 2;
      EvenPart1Halves(id, k);
      DoubledHalves(Decimal(id), Digits(Quot(id, Pow10(k)), k), Digits(id, k));
    } else if IsDoubled(Decimal(id)) {
      var half: seq<nat> :| Decimal(id) == Repeat(half, 2);
      RepeatTwice(half);
    }
  }

  /** The digits of the `n` low groups of `p` digits of `x`, group by group. */
  function GroupDigits(x: nat, p: nat, n: nat): seq<nat>
  {
    if n == 0 then [] else GroupDigits(Quot(x, Pow10(p)), p, n - 1) + Digits(x, p)
  }

  lemma {:induction false} GroupDigitsAreDigits(x: nat, p: nat, n: nat)
    ensures GroupDigits(x, p, n) == Digits(x, n * p)
  {
    if n > 0 {
      var y, k := Quot(x, Pow10(p)), (n - 1) * p;
      assert k + p == n * p by {
        MulAddRight(n - 1, 1, p);
      }
      calc {
        GroupDigits(x, p, n);
        GroupDigits(y, p, n - 1) + Digits(x, p);
        { GroupDigitsAreDigits(y, p, n - 1); }
        Digits(y, k) + Digits(x, p);
        { DigitsSplit(x, k, p); }
        Digits(x, k + p);
      }
    }
  }

  /** Groups of `p` digits: the low groups of `x` all equal `ref` exactly when
      the digits of those groups are those of `ref` written once per group. */
  lemma {:induction false} GroupsRepeat(x: nat, p: nat, c: nat, ref: nat)
    requires ref < Pow10(p)
    ensures (x % Pow10(p) == ref && LaterGroupsMatch(x, Pow10(p), ref, c))
            <==> GroupDigits(x, p, c + 1) == Repeat(Digits(ref, p), c + 1)
  {
    var m := Pow10(p);
    var block := Digits(ref, p);
    assert Digits(x, p) == block <==> x % m == ref by {
      DigitsEqual(x, ref, p);
      DivModUnique(ref, m, 0, ref);
    }
    if c == 0 {
      assert Repeat(block, 1) == block;
      assert GroupDigits(x, p, 1) == Digits(x, p);
    } else {
      var y := Quot(x, m);
      GroupsRepeat(y, p, c - 1, ref);
      assert LaterGroupsMatch(x, m, ref, c) <==> y % m == ref && LaterGroupsMatch(y, m, ref, c - 1);
      GroupsStep(x, p, c, block);
    }
  }

  /** The low group followed by the `c` groups above it: all of them are
      `block` exactly when the low one is and the ones above are. */
  lemma GroupsStep(x: nat, p: nat, c: nat, block: seq<nat>)
    requires |block| == p
    ensures GroupDigits(x, p, c + 1) == Repeat(block, c + 1)
            <==> GroupDigits(Quot(x, Pow10(p)), p, c) == Repeat(block, c) && Digits(x, p) == block
  {
    var y := Quot(x, Pow10(p));
    assert GroupDigits(x, p, c + 1) == GroupDigits(y, p, c) + Digits(x, p);
    GroupDigitsAreDigits(y, p, c);
    RepeatLength(block, c);
    ConcatEqual(GroupDigits(y, p, c), Digits(x, p), Repeat(block, c), block);
  }

  /** The outer search succeeds exactly when some part length in range works. */
  lemma {:induction false} SomePartLenFromSpec(id: nat, len: nat, p: nat)
    requires p >= 1
    ensures SomePartLenFrom(id, len, p) <==> exists q :: p <= q <= len / 2 && IsRepeatingPartLen(id, len, q)
    decreases len / 2 + 1 - p
  {
    if p <= len / 2 {
      SomePartLenFromSpec(id, len, p + 1);
    }
  }

  /** A part length `q <= len / 2` dividing `len` leaves `len / q >= 2` groups. */
  lemma GroupCount(len: nat, q: nat)
    requires 1 <= q <= len / 2 && len % q == 0
    ensures len == (len / q) * q && len / q >= 2
  {
    var n := len / q;
    assert len == n * q;
    if n < 2 {
      MulAtLeastMono(1, n, q);
    }
  }

  /** A digit string of `len` digits written as `n >= 2` blocks has a block
      length dividing `len` and at most `len / 2`. */
  lemma BlockLength(len: nat, n: nat, q: nat)
    requires 2 <= n && len == n * q && len >= 1
    ensures 1 <= q <= len / 2 && len % q == 0 && len / q == n
  {
    assert 2 * q <= n * q;
    DivModUnique(len, q, n, 0);
  }

  /** A part length that passes the group test of `is_invalid_part2` makes the digits a
      repetition of their lowest group. */
  lemma RepeatingPartLenRepeats(id: nat, len: nat, q: nat)
    requires id >= 1 && len == DigitCount(id)
    requires 1 <= q <= len / 2 && IsRepeatingPartLen(id, len, q)
    ensures Decimal(id) == Repeat(Digits(id % Pow10(q), q), len / q)
    ensures len / q >= 2
  {
    var n := len / q;
    DecimalIsDigits(id);
    GroupCount(len, q);
    GroupsRepeat(id, q, n - 1, id % Pow10(q));
    GroupDigitsAreDigits(id, q, n);
  }

  /** A repetition of a block of `q` digits passes the group test of `is_invalid_part2` for
      part length `q`. */
  lemma RepetitionPasses(id: nat, block: seq<nat>, n: nat)
    requires id >= 1 && 2 <= n && Decimal(id) == Repeat(block, n)
    ensures var len, q := DigitCount(id), |block|;
            1 <= q <= len / 2 && IsRepeatingPartLen(id, len, q)
  {
    var len, q := DigitCount(id), |block|;
    DecimalIsDigits(id);
    RepeatLength(block, n);
    BlockLength(len, n, q);
    var m := Pow10(q);
    var y := Quot(id, m);
    var low := id % m;
    GroupDigitsAreDigits(id, q, n);
    assert GroupDigits(id, q, n) == GroupDigits(y, q, n - 1) + Digits(id, q);
    GroupDigitsAreDigits(y, q, n - 1);
    RepeatLength(block, n - 1);
    ConcatEqual(GroupDigits(y, q, n - 1), Digits(id, q), Repeat(block, n - 1), block);
    DigitsEqual(id, low, q);
    DivModUnique(low, m, 0, low);
    assert block == Digits(low, q);
    GroupsRepeat(id, q, n - 1, low);
  }

  /** A passing part length makes the digits a repetition. */
  lemma Part2IsRepetition(id: nat)
    requires id >= 1 && IsInvalidPart2(id)
    ensures IsRepetition(Decimal(id))
  {
    var len := DigitCount(id);
    SomePartLenFromSpec(id, len, 1);
    var q :| 1 <= q <= len / 2 && IsRepeatingPartLen(id, len, q);
    RepeatingPartLenRepeats(id, len, q);
    var block, n := Digits(id % Pow10(q), q), len / q;
    assert 2 <= n && Decimal(id) == Repeat(block, n);
  }

  /** A repetition has a passing part length. */
  lemma RepetitionIsPart2(id: nat)
    requires id >= 1 && IsRepetition(Decimal(id))
    ensures IsInvalidPart2(id)
  {
    var block: seq<nat>, n: nat :| 2 <= n && Decimal(id) == Repeat(block, n);
    RepetitionPasses(id, block, n);
    SomePartLenFromSpec(id, DigitCount(id), 1);
  }

  /** The second rule holds exactly when the decimal digits are a block written
      at least twice. */
  lemma InvalidPart2Spec(id: nat)
    requires id >= 1
    ensures IsInvalidPart2(id) <==> IsRepetition(Decimal(id))
  {
    if IsInvalidPart2(id) {
      Part2IsRepetition(id);
    }
    if IsRepetition(Decimal(id)) {
      RepetitionIsPart2(id);
    }
  }

  /** Every id invalid under the first rule is invalid under the second. */
  lemma Part1ImpliesPart2(id: nat)
    requires id >= 1
    ensures IsInvalidPart1(id) ==> IsInvalidPart2(id)
  {
    InvalidPart1Spec(id);
    InvalidPart2Spec(id);
    if IsInvalidPart1(id) {
      var half: seq<nat> :| Decimal(id) == Repeat(half, 2);
    }
  }

  /** One-digit ids are valid under both rules. */
  lemma SingleDigitValid(id: nat)
    requires 1 <= id < 10
    ensures !IsInvalidPart1(id) && !IsInvalidPart2(id)
  {
  }

  // Ranges

  datatype IdRange = IdRange(first: U64, last: U64)

  /** `IdRange::new`, which asserts `first <= last`. */
  function NewIdRange(first: U64, last: U64): (r: Result<IdRange>)
    ensures r.Ok? <==> first <= last
    ensures r.Ok? ==> r.value.first == first && r.value.last == last
  {
    if first <= last then Ok(IdRange(first, last)) else Err
  }

  /** The numbers of `lo..=hi` that satisfy `p`, in ascending order. */
  function FilterRange(lo: nat, hi: nat, p: nat -> bool): (ids: seq<nat>)
    ensures forall i, j :: 0 <= i < j < |ids| ==> ids[i] < ids[j]
    ensures forall x :: x in ids <==> lo <= x <= hi && p(x)
    decreases hi + 1 - lo
  {
    if lo > hi then []
    else
      var rest := FilterRange(lo + 1, hi, p);
      assert forall j :: 0 <= j < |rest| ==> lo < rest[j] by {
        forall j | 0 <= j < |rest| ensures lo < rest[j] {
          assert rest[j] in rest;
        }
      }
      (if p(lo) then [lo] else []) + rest
  }

  /** `invalid_ids`: the ids of the range, first to last inclusive, that satisfy
      `p`, ascending; a range read with `first > last` has none. */
  function InvalidIds(r: IdRange, p: nat -> bool): (ids: seq<nat>)
    ensures forall i, j :: 0 <= i < j < |ids| ==> ids[i] < ids[j]
    ensures forall x :: x in ids <==> r.first <= x <= r.last && p(x)
  {
    FilterRange(r.first, r.last, p)
  }

  /** The rules as total predicates; 0 is never passed to them. */
  predicate InvalidUnderPart1(x: nat)
  {
    x >= 1 && IsInvalidPart1(x)
  }

  predicate InvalidUnderPart2(x: nat)
  {
    x >= 1 && IsInvalidPart2(x)
  }

  /** `invalid_ids_part1`: the ids of the range invalid under the first rule.
      A range starting at 0 hands 0 to `ilog10`, which panics. */
  function InvalidIdsPart1(r: IdRange): (ids: Result<seq<nat>>)
    ensures ids.Err? <==> r.first == 0
    ensures ids.Ok? ==> forall i, j :: 0 <= i < j < |ids.value| ==> ids.value[i] < ids.value[j]
    ensures ids.Ok? ==> forall x :: x in ids.value <==> r.first <= x <= r.last && IsInvalidPart1(x)
  {
    if r.first == 0 then Err else Ok(InvalidIds(r, InvalidUnderPart1))
  }

  /** `invalid_ids_part2`: the ids of the range invalid under the second rule. */
  function InvalidIdsPart2(r: IdRange): (ids: Result<seq<nat>>)
    ensures ids.Err? <==> r.first == 0
    ensures ids.Ok? ==> forall i, j :: 0 <= i < j < |ids.value| ==> ids.value[i] < ids.value[j]
    ensures ids.Ok? ==> forall x :: x in ids.value <==> r.first <= x <= r.last && IsInvalidPart2(x)
  {
    if r.first == 0 then Err else Ok(InvalidIds(r, InvalidUnderPart2))
  }

  function Sum(s: seq<nat>): nat
  {
    if |s| == 0 then 0 else s[0] + Sum(s[1..])
  }

  /** `sum` of `u64` values: the running total only grows, so it overflows,
      which panics, exactly when the whole sum does not fit. */
  function SumU64(ids: Result<seq<nat>>): (r: Result<U64>)
    ensures r.Ok? <==> ids.Ok? && Sum(ids.value) < U64_LIMIT
    ensures r.Ok? ==> r.value == Sum(ids.value)
  {
    match ids
    case Err => Err
    case Ok(s) => if Sum(s) < U64_LIMIT then Ok(Sum(s)) else Err
  }

  /** `invalid_ids_sum_part1`. */
  function InvalidIdsSumPart1(r: IdRange): (sum: Result<U64>)
    ensures sum.Err? <==> r.first == 0 || Sum(InvalidIdsPart1(r).value) >= U64_LIMIT
    ensures sum.Ok? ==> sum.value == Sum(InvalidIdsPart1(r).value)
  {
    SumU64(InvalidIdsPart1(r))
  }

  /** `invalid_ids_sum_part2`. */
  function InvalidIdsSumPart2(r: IdRange): (sum: Result<U64>)
    ensures sum.Err? <==> r.first == 0 || Sum(InvalidIdsPart2(r).value) >= U64_LIMIT
    ensures sum.Ok? ==> sum.value == Sum(InvalidIdsPart2(r).value)
  {
    SumU64(InvalidIdsPart2(r))
  }

  /** Filtering with a weaker predicate keeps at least the same ids, so the sum
      can only grow. */
  lemma {:induction false} FilterSumMonotone(lo: nat, hi: nat, p: nat -> bool, q: nat -> bool)
    requires forall x :: p(x) ==> q(x)
    ensures Sum(FilterRange(lo, hi, p)) <= Sum(FilterRange(lo, hi, q))
    decreases hi + 1 - lo
  {
    if lo <= hi {
      FilterSumMonotone(lo + 1, hi, p, q);
      SumCons(lo, p(lo), FilterRange(lo + 1, hi, p));
      SumCons(lo, q(lo), FilterRange(lo + 1, hi, q));
    }
  }

  lemma SumCons(x: nat, keep: bool, rest: seq<nat>)
    ensures Sum((if keep then [x] else []) + rest) == (if keep then x else 0) + Sum(rest)
  {
    if keep {
      assert ([x] + rest)[1..] == rest;
    } else {
      assert [] + rest == rest;
    }
  }

  /** The second rule's sum over a range is at least the first rule's: when
      the second sum fits in a `u64` so does the first, and it is no larger. */
  lemma SumPart1AtMostPart2(r: IdRange)
    ensures r.first == 0 ==> InvalidIdsSumPart1(r).Err? && InvalidIdsSumPart2(r).Err?
    ensures InvalidIdsSumPart2(r).Ok? ==>
              InvalidIdsSumPart1(r).Ok? && InvalidIdsSumPart1(r).value <= InvalidIdsSumPart2(r).value
  {
    forall x: nat | InvalidUnderPart1(x) ensures InvalidUnderPart2(x) {
      Part1ImpliesPart2(x);
    }
    FilterSumMonotone(r.first, r.last, InvalidUnderPart1, InvalidUnderPart2);
  }

  // Parsing

  /** Parses every piece as a `u64`; any failure fails the whole. */
  function ParseAll(parts: seq<string>): (r: Result<seq<nat>>)
    ensures r.Ok? <==> forall k :: 0 <= k < |parts| ==> ParseUnsigned(parts[k], U64_LIMIT).Ok?
    ensures r.Ok? ==> |r.value| == |parts|
    ensures r.Ok? ==> forall k :: 0 <= k < |parts| ==> ParseUnsigned(parts[k], U64_LIMIT) == Ok(r.value[k])
  {
    if |parts| == 0 then Ok([])
    else
      match (ParseUnsigned(parts[0], U64_LIMIT), ParseAll(parts[1..]))
      case (Ok(v), Ok(vs)) => Ok([v] + vs)
      case (Err, _) => Err
      case (_, Err) =>
        assert exists k :: 1 <= k < |parts| && ParseUnsigned(parts[k], U64_LIMIT).Err? by {
          var k :| 0 <= k < |parts[1..]| && ParseUnsigned(parts[1..][k], U64_LIMIT).Err?;
          assert parts[1..][k] == parts[k + 1];
        }
        Err
  }

  /** `IdRange::from_str`: splits at `-`, parses every piece as a `u64`, and
      takes the first two; fewer than two pieces or any bad piece panics. No
      order between the bounds is checked. */
  function ParseIdRange(s: string): (r: Result<IdRange>)
    ensures var parts := Text.Split(s, '-');
            r.Ok? <==> |parts| >= 2 && forall k :: 0 <= k < |parts| ==> ParseUnsigned(parts[k], U64_LIMIT).Ok?
    ensures var parts := Text.Split(s, '-');
            r.Ok? ==> ParseUnsigned(parts[0], U64_LIMIT) == Ok(r.value.first as nat)
                      && ParseUnsigned(parts[1], U64_LIMIT) == Ok(r.value.last as nat)
  {
    var parts := Text.Split(s, '-');
    match ParseAll(parts)
    case Ok(vs) => if |vs| >= 2 then Ok(IdRange(vs[0], vs[1])) else Err
    case Err => Err
  }

  function IdRangeText(r: IdRange): string
  {
    ToDecimalString(r.first) + "-" + ToDecimalString(r.last)
  }

  /** Decimal text holds no `-`. */
  lemma NoDash(n: nat)
    ensures '-' !in ToDecimalString(n)
  {
    var a := ToDecimalString(n);
    forall i | 0 <= i < |a| ensures a[i] != '-' {
      assert IsDigitChar(a[i]);
    }
  }

  /** Parsing the text of a range gives it back, whatever the order of its bounds. */
  lemma ParseIdRangeText(r: IdRange)
    ensures ParseIdRange(IdRangeText(r)) == Ok(r)
  {
    var a, b := ToDecimalString(r.first), ToDecimalString(r.last);
    var parts := [a, b];
    NoDash(r.first);
    NoDash(r.last);
    assert Text.Join(parts, '-') == IdRangeText(r) by {
      assert parts[1..] == [b];
    }
    Text.SplitJoin(parts, '-');
    ParseDecimalString(r.first, U64_LIMIT);
    ParseDecimalString(r.last, U64_LIMIT);
  }
}

=== FILE: machine.dfy ===
/** The fixed-width unsigned integer types of the Rust code, as subset types of `int`. */
module Machine {

  type U8 = x: int | 0 <= x < 0x100
  type U16 = x: int | 0 <= x < 0x1_0000
  type U64 = x: int | 0 <= x < 0x1_0000_0000_0000_0000

  /** One byte of UTF-8 text. */
  type Byte = U8

  const U8_LIMIT: nat := 0x100
  const U16_LIMIT: nat := 0x1_0000
  const U64_LIMIT: nat := 0x1_0000_0000_0000_0000

  /** The ASCII bytes the parsers look at. */
  const LF: Byte := 10
  const CR: Byte := 13
  const ZERO: Byte := 48
  const AT: Byte := 64
  const DOT: Byte := 46

  /** The bytes of an ASCII string. */
  function AsciiBytes(s: string): (bs: seq<Byte>)
    requires forall i :: 0 <= i < |s| ==> s[i] as int < 0x80
    ensures |bs| == |s|
    ensures forall i :: 0 <= i < |s| ==> bs[i] == s[i] as int
  {
    seq(|s|, i requires 0 <= i < |s| => s[i] as int as Byte)
  }
}

=== FILE: numerals.dfy ===
/** Decimal notation of natural numbers: powers of ten, fixed-width digit
    strings, the shortest decimal representation, `ilog10`, and the parser of
    unsigned decimal text that the puzzle parsers rely on. */
module Numerals {
  import opened DivMod
  import opened Results

  function Pow10(k: nat): (p: nat)
    ensures p >= 1
  {
    if k == 0 then 1 else 10 * Pow10(k - 1)
  }

  lemma {:induction false} Pow10Add(j: nat, k: nat)
    ensures Pow10(j + k) == Pow10(j) * Pow10(k)
  {
    if k > 0 {
      Pow10Add(j, k - 1);
      assert Pow10(j + k) == 10 * Pow10(j + k - 1);
    }
  }

  /** The `k` lowest decimal digits of `n`, most significant first, padded with
      leading zeros. */
  function Digits(n: nat, k: nat): (ds: seq<nat>)
    ensures |ds| == k
    ensures forall i :: 0 <= i < k ==> ds[i] < 10
  {
    if k == 0 then [] else Digits(n / 10, k - 1) + [n % 10]
  }

  /** The decimal representation of `n`, without leading zeros ("0" for zero). */
  function Decimal(n: nat): (ds: seq<nat>)
    ensures 1 <= |ds|
    ensures forall i :: 0 <= i < |ds| ==> ds[i] < 10
    ensures n >= 1 ==> ds[0] != 0
  {
    if n < 10 then [n] else Decimal(n / 10) + [n % 10]
  }

  /** The floor of the base-10 logarithm, as Rust's `ilog10` (which rejects 0). */
  function ILog10(n: nat): (e: nat)
    requires n >= 1
    ensures Pow10(e) <= n < Pow10(e + 1)
  {
    if n < 10 then 0 else 1 + ILog10(n / 10)
  }

  /** `ilog10(n) + 1` counts the digits of the decimal representation, and that
      representation is the fixed-width digit string of that width. */
  lemma {:induction false} DecimalIsDigits(n: nat)
    requires n >= 1
    ensures |Decimal(n)| == ILog10(n) + 1
    ensures Decimal(n) == Digits(n, ILog10(n) + 1)
  {
    if n >= 10 {
      DecimalIsDigits(n / 10);
    }
  }

  lemma {:induction false} Pow10Monotone(a: nat, b: nat)
    requires a <= b
    ensures Pow10(a) <= Pow10(b)
    decreases b - a
  {
    if a < b {
      Pow10Monotone(a + 1, b);
    }
  }

  /** `ilog10` is the one exponent whose power and next power bracket `n`. */
  lemma ILog10Unique(n: nat, e: nat)
    requires Pow10(e) <= n < Pow10(e + 1)
    ensures ILog10(n) == e
  {
    var f := ILog10(n);
    if f < e {
      Pow10Monotone(f + 1, e);
    } else if f > e {
      Pow10Monotone(e + 1, f);
    }
  }

  /** The `j + k` low digits are the `j` low digits of `n / 10^k` followed by the
      `k` low digits of `n`. */
  lemma {:induction false} DigitsSplit(n: nat, j: nat, k: nat)
    ensures Digits(n, j + k) == Digits(Quot(n, Pow10(k)), j) + Digits(n, k)
  {
    if k > 0 {
      var tail := n / 10;
      DigitsSplit(tail, j, k - 1);
      assert Quot(tail, Pow10(k - 1)) == Quot(n, Pow10(k)) by {
        DivDiv(n, 10, Pow10(k - 1));
      }
      assert Digits(n, j + k) == Digits(tail, j + k - 1) + [n % 10];
      assert Digits(n, k) == Digits(tail, k - 1) + [n % 10];
    }
  }

  /** Two numbers have the same `k` low digits iff they agree modulo `10^k`. */
  lemma {:induction false} DigitsEqual(a: nat, b: nat, k: nat)
    ensures Digits(a, k) == Digits(b, k) <==> a % Pow10(k) == b % Pow10(k)
  {
    if k > 0 {
      DigitsEqual(a / 10, b / 10, k - 1);
      DivDiv(a, 10, Pow10(k - 1));
      DivDiv(b, 10, Pow10(k - 1));
      var da, db := Digits(a / 10, k - 1), Digits(b / 10, k - 1);
      if Digits(a, k) == Digits(b, k) {
        assert da == Digits(a, k)[..k - 1] && db == Digits(b, k)[..k - 1];
        assert a % 10 == Digits(a, k)[k - 1] && b % 10 == Digits(b, k)[k - 1];
      }
    }
  }

  /** The value a digit string denotes. */
  function DigitsValue(ds: seq<nat>): nat
  {
    if |ds| == 0 then 0 else DigitsValue(ds[..|ds| - 1]) * 10 + ds[|ds| - 1]
  }

  lemma {:induction false} DecimalValue(n: nat)
    ensures DigitsValue(Decimal(n)) == n
  {
    if n >= 10 {
      DecimalValue(n / 10);
      assert Decimal(n)[..|Decimal(n)| - 1] == Decimal(n / 10);
    }
  }

  /** A digit string without a leading zero is the decimal representation of
      its value. */
  lemma {:induction false} DecimalOfDigits(ds: seq<nat>)
    requires |ds| >= 1 && ds[0] != 0
    requires forall i :: 0 <= i < |ds| ==> ds[i] < 10
    ensures Decimal(DigitsValue(ds)) == ds
  {
    if |ds| > 1 {
      var init, last := ds[..|ds| - 1], ds[|ds| - 1];
      DecimalOfDigits(init);
      var v := DigitsValue(init);
      assert Decimal(0) == [0];
      assert v != 0;
      var n := DigitsValue(ds);
      assert n == v * 10 + last;
      DivModUnique(n, 10, v, last);
      assert ds == init + [last];
    }
  }

  // Characters

  predicate IsDigitChar(c: char)
  {
    '0' <= c <= '9'
  }

  function DigitChar(d: nat): (c: char)
    requires d < 10
    ensures IsDigitChar(c)
  {
    (d + '0' as int) as char
  }

  function CharDigit(c: char): (d: nat)
    requires IsDigitChar(c)
    ensures d < 10
  {
    c as int - '0' as int
  }

  /** The decimal text of `n`, as Rust's `Display` for unsigned integers. */
  function ToDecimalString(n: nat): (s: string)
    ensures |s| == |Decimal(n)|
    ensures forall i :: 0 <= i < |s| ==> s[i] == DigitChar(Decimal(n)[i])
  {
    seq(|Decimal(n)|, i requires 0 <= i < |Decimal(n)| => DigitChar(Decimal(n)[i]))
  }

  /** The value of a string of ASCII digits. */
  function CharsValue(s: string): nat
    requires forall i :: 0 <= i < |s| ==> IsDigitChar(s[i])
  {
    if |s| == 0 then 0 else CharsValue(s[..|s| - 1]) * 10 + CharDigit(s[|s| - 1])
  }

  lemma {:induction false} CharsValueOfDigits(ds: seq<nat>, s: string)
    requires forall i :: 0 <= i < |ds| ==> ds[i] < 10
    requires |s| == |ds| && forall i :: 0 <= i < |s| ==> s[i] == DigitChar(ds[i])
    requires forall i :: 0 <= i < |s| ==> IsDigitChar(s[i])
    ensures CharsValue(s) == DigitsValue(ds)
  {
    if |ds| > 0 {
      CharsValueOfDigits(ds[..|ds| - 1], s[..|s| - 1]);
    }
  }

  /** The text after one optional leading `+`. */
  function UnsignedDigits(s: string): string
  {
    if |s| > 0 && s[0] == '+' then s[1..] else s
  }

  predicate AllDigits(s: string)
  {
    forall i :: 0 <= i < |s| ==> IsDigitChar(s[i])
  }

  /** Rust's `str::parse` for an unsigned integer type whose values are below
      `limit`: an optional `+`, then one or more ASCII digits (leading zeros
      allowed) whose value is below `limit`; anything else, a `-` included,
      is an error. */
  function ParseUnsigned(s: string, limit: nat): (r: Result<nat>)
    ensures r.Ok? <==> var d := UnsignedDigits(s); |d| >= 1 && AllDigits(d) && CharsValue(d) < limit
    ensures r.Ok? ==> r.value == CharsValue(UnsignedDigits(s)) && r.value < limit
    ensures r.Ok? ==> |s| >= 1 && IsDigitChar(s[|s| - 1])
    ensures |s| >= 1 && AllDigits(s) && CharsValue(s) < limit ==> r == Ok(CharsValue(s))
  {
    var digits := UnsignedDigits(s);
    if |digits| == 0 || exists i :: 0 <= i < |digits| && !IsDigitChar(digits[i]) then Err
    else
      var v := CharsValue(digits);
      assert s[|s| - 1] == digits[|digits| - 1];
      if v < limit then Ok(v) else Err
  }

  /** Parsing the decimal text of a number below the limit gives the number back. */
  lemma ParseDecimalString(n: nat, limit: nat)
    requires n < limit
    ensures ParseUnsigned(ToDecimalString(n), limit) == Ok(n)
  {
    var s := ToDecimalString(n);
    CharsValueOfDigits(Decimal(n), s);
    DecimalValue(n);
  }
}

=== FILE: results.dfy ===
/** The outcome of a parser or computation of the Rust code that either produces a
    value or gives up. Its `Err(())` returns and its panics (`unwrap`,
    `panic!`, `assert!`, arithmetic overflow in a debug build) all become `Err`. */
module Results {

  datatype Result<+T> = Ok(value: T) | Err
}

=== FILE: text.dfy ===
/** The two string-splitting primitives the parsers use: `str::split` on a
    single separator and `str::lines`. */
module Text {
  import opened Machine

  /** Position of the first `x` in `s`, or `|s|` when there is none. */
  function IndexOf<T(==)>(s: seq<T>, x: T): (i: nat)
    ensures i <= |s|
    ensures i < |s| ==> s[i] == x
    ensures forall j :: 0 <= j < i ==> s[j] != x
  {
    if |s| == 0 then 0 else if s[0] == x then 0 else 1 + IndexOf(s[1..], x)
  }

  /** Rust's `split` with a single separator: the pieces between separators,
      empty ones included, so there is always at least one piece. */
  function Split<T(==)>(s: seq<T>, sep: T): (parts: seq<seq<T>>)
    ensures |parts| >= 1
    ensures forall k :: 0 <= k < |parts| ==> sep !in parts[k]
    decreases |s|
  {
    var i := IndexOf(s, sep);
    if i == |s| then [s] else [s[..i]] + Split(s[i + 1..], sep)
  }

  /** The pieces put back together with the separator between them. */
  function Join<T>(parts: seq<seq<T>>, sep: T): seq<T>
    requires |parts| >= 1
  {
    if |parts| == 1 then parts[0] else parts[0] + [sep] + Join(parts[1..], sep)
  }

  /** Splitting loses nothing: joining the pieces restores the text. */
  lemma {:induction false} JoinSplit<T>(s: seq<T>, sep: T)
    ensures Join(Split(s, sep), sep) == s
    decreases |s|
  {
    var i := IndexOf(s, sep);
    if i < |s| {
      var rest := s[i + 1..];
      var parts := Split(s, sep);
      assert parts[0] == s[..i] && parts[1..] == Split(rest, sep) by {
        assert parts == [s[..i]] + Split(rest, sep);
      }
      assert Join(parts, sep) == s[..i] + [sep] + Join(Split(rest, sep), sep);
      JoinSplit(rest, sep);
      assert s == s[..i] + [sep] + rest;
    }
  }

  /** Pieces free of the separator are recovered by splitting their join. */
  lemma {:induction false} SplitJoin<T>(parts: seq<seq<T>>, sep: T)
    requires |parts| >= 1
    requires forall k :: 0 <= k < |parts| ==> sep !in parts[k]
    ensures Split(Join(parts, sep), sep) == parts
  {
    var s := Join(parts, sep);
    if |parts| == 1 {
      assert IndexOf(s, sep) == |s|;
    } else {
      var rest := Join(parts[1..], sep);
      assert s == parts[0] + [sep] + rest;
      assert IndexOf(s, sep) == |parts[0]| by {
        assert s[|parts[0]|] == sep;
        assert forall j :: 0 <= j < |parts[0]| ==> s[j] == parts[0][j];
      }
      assert s[..|parts[0]|] == parts[0];
      assert s[|parts[0]| + 1..] == rest;
      SplitJoin(parts[1..], sep);
    }
  }

  /** Drops one `\r` at the end of a line. */
  function StripCR(line: seq<Byte>): (r: seq<Byte>)
    ensures LF !in line ==> LF !in r
  {
    if |line| > 0 && line[|line| - 1] == CR then line[..|line| - 1] else line
  }

  /** Rust's `str::lines`: the pieces ending at each `\n`, with one `\r` before
      the `\n` dropped; the last piece needs no `\n`, and empty text has no
      lines. */
  function Lines(s: seq<Byte>): (lines: seq<seq<Byte>>)
    ensures forall k :: 0 <= k < |lines| ==> LF !in lines[k]
    decreases |s|
  {
    if |s| == 0 then []
    else
      var i := IndexOf(s, LF);
      if i == |s| then [s] else [StripCR(s[..i])] + Lines(s[i + 1..])
  }

  /** Rows each terminated by `\n`. */
  function JoinLines(rows: seq<seq<Byte>>): seq<Byte>
  {
    if |rows| == 0 then [] else rows[0] + [LF] + JoinLines(rows[1..])
  }

  /** A row that survives `lines` unchanged: no `\n` inside, no `\r` at the end. */
  predicate IsPlainLine(row: seq<Byte>)
  {
    LF !in row && (|row| == 0 || row[|row| - 1] != CR)
  }

  /** `lines` splits text written by `JoinLines` back into its rows. */
  lemma {:induction false} LinesJoinLines(rows: seq<seq<Byte>>)
    requires forall k :: 0 <= k < |rows| ==> IsPlainLine(rows[k])
    ensures Lines(JoinLines(rows)) == rows
  {
    if |rows| > 0 {
      var s := JoinLines(rows);
      var rest := JoinLines(rows[1..]);
      assert s == rows[0] + [LF] + rest;
      assert IndexOf(s, LF) == |rows[0]| by {
        assert s[|rows[0]|] == LF;
        assert forall j :: 0 <= j < |rows[0]| ==> s[j] == rows[0][j];
      }
      assert s[..|rows[0]|] == rows[0];
      assert s[|rows[0]| + 1..] == rest;
      LinesJoinLines(rows[1..]);
    }
  }

  /** Rows each terminated by `\r\n`. */
  function JoinCrlfLines(rows: seq<seq<Byte>>): seq<Byte>
  {
    if |rows| == 0 then [] else rows[0] + [CR, LF] + JoinCrlfLines(rows[1..])
  }

  /** `lines` also splits text written with `\r\n` endings back into its rows:
      the `\r` before each `\n` is dropped with it. */
  lemma {:induction false} LinesJoinCrlfLines(rows: seq<seq<Byte>>)
    requires forall k :: 0 <= k < |rows| ==> IsPlainLine(rows[k])
    ensures Lines(JoinCrlfLines(rows)) == rows
  {
    if |rows| > 0 {
      var s := JoinCrlfLines(rows);
      var rest := JoinCrlfLines(rows[1..]);
      var n := |rows[0]|;
      assert s == rows[0] + [CR, LF] + rest;
      assert IndexOf(s, LF) == n + 1 by {
        assert s[n] == CR && s[n + 1] == LF;
        assert forall j :: 0 <= j < n ==> s[j] == rows[0][j];
      }
      assert s[..n + 1] == rows[0] + [CR];
      assert StripCR(rows[0] + [CR]) == rows[0] by {
        assert (rows[0] + [CR])[..n] == rows[0];
      }
      assert s[n + 2..] == rest;
      LinesJoinCrlfLines(rows[1..]);
    }
  }

  /** Appending one element leaves a `\n` already found where it was, and
      an appended `\n` is found when there was none. */
  lemma IndexOfAppend(s: seq<Byte>, y: Byte)
    ensures IndexOf(s, LF) < |s| ==> IndexOf(s + [y], LF) == IndexOf(s, LF)
    ensures IndexOf(s, LF) == |s| && y == LF ==> IndexOf(s + [y], LF) == |s|
  {
    var t := s + [y];
    var i, k := IndexOf(s, LF), IndexOf(t, LF);
    assert forall j :: 0 <= j < |s| ==> t[j] == s[j];
    assert k < |s| ==> t[k] == s[k];
    if i < |s| {
      assert t[i] == LF;
    } else if y == LF {
      assert t[|s|] == LF;
    }
  }

  /** A final `\n` after the last line does not add a line. */
  lemma {:induction false} LinesTrailingNewline(s: seq<Byte>)
    requires |s| > 0 && s[|s| - 1] != LF && s[|s| - 1] != CR
    ensures Lines(s + [LF]) == Lines(s)
    decreases |s|
  {
    var t := s + [LF];
    var i := IndexOf(s, LF);
    IndexOfAppend(s, LF);
    if i == |s| {
      assert t[..|s|] == s;
      assert t[|s| + 1..] == [];
    } else {
      assert t[..i] == s[..i];
      assert t[i + 1..] == s[i + 1..] + [LF];
      LinesTrailingNewline(s[i + 1..]);
    }
  }
}
